=== FILE: README.md ===
# Preface story engine — a Dafny model

This project models the sequential core of a small interactive-fiction server written in Go. It covers five pieces.

- **The keyword annotator** (`internal/game/annotation.go`). It picks non-overlapping, case-insensitive occurrences of concept keywords, longest keyword first, and wraps each one in a `<mark>` element. It also keeps the keyword list.
- **The answer checkers** (`internal/game/validation.go`). These are `normalize`, whole-word matching, keyword scoring, the longest-first exchange sort and the multiple-choice scorer.
- **The scene registry** (`internal/story/scene.go`). `LoadScenes` builds a lookup table from a scene list, and `GetScene` reads it.
- **The scene-file loader** (`internal/story/yaml_loader.go`), starting from the decoded YAML. It covers the scene-ID and impact grammars, scene conversion, the conversion loop, and the graph check that reports every defect.
- **The choice handler** (`cmd/preface/main.go`, `handleChoice`). It is a pure function from the posted form and the registry to what the player sees next.

## Modules

- `Wrappers` holds `Option` and `Result`.
- `Strings` holds the parts of Go's `strings`, `unicode` and `fmt` the core uses, on ASCII text: `ToLower`, `Index`, `TrimSpace`, `Trim`, `TrimRight`, `Fields`, `Join` and `%d`.
- `Sorting` is a generic insertion sort by an integer key that keeps equal keys in input order. It picks one of the orders Go's unstable `sort.Slice` may produce: the one it produces on short slices, which it sorts by insertion.
- `Annotation`, `Validation`, `Story`, `Grammar` (the two regular expressions of the loader), `Loader` and `Resolver` follow the source files.

## How the model relates to the source

Design choices:
- Registry values: `LoadScenes` takes only the new scenes and returns a fresh registry, so nothing from an earlier load survives.
- Regular expressions: the two anchored, deterministic expressions of the loader are written as hand-made parsers into parts. Each is proved inverse to a printer of well-formed parts, so an ID or impact passes exactly when some well-formed parts spell it.
- Defect reports: a graph defect is a `Violation` value, not a formatted message. Reports are collected in the order the Go code appends them.
- Render ordering: `Render` is stated for every order an unstable sort could leave among keywords of equal length. The model uses one concrete order, and every lemma about the selected spans is proved for all orders that are sorted longest first.

Where the code and its comments disagree, the model follows the code:
- `ValidateChoice` counts repeated selections (see "Findings").
- `validateNext` accepts any `next` that starts with a minus sign.

## Model

| member | source | states |
|---|---|---|
| Annotation.NewAnnotatedText | internal/game/annotation.go:34-39 | a new text keeps the given raw text, starts with no keywords, and so reports no keyword as annotated |
| Annotation.AddKeyword | internal/game/annotation.go:42-49 | exactly one keyword, not learned, with the given text and category is appended; the raw text and every earlier keyword are unchanged |
| Annotation.AddLearnedKeyword | internal/game/annotation.go:52-59 | the same, with the appended keyword marked learned |
| Annotation.HasKeyword | internal/game/annotation.go:166-174 | true exactly when some keyword's lower-case text equals the lower-case query |
| Annotation.AddKeywordThenHas | internal/game/annotation.go:42-59 | after adding a keyword the text has it; it has any other query exactly when it had it before or the query equals the new keyword ignoring case |
| Annotation.MarkAsLearned | internal/game/annotation.go:177-184 | texts, categories and the raw text are unchanged; a keyword ends up learned exactly when it was learned or its text matches ignoring case |
| Annotation.MarkAsLearnedProperties | internal/game/annotation.go:177-184 | marking keeps which keywords the text has, leaves a matching keyword learned, and is idempotent |
| Annotation.MarkupFormat | internal/game/annotation.go:111-117 | the markup is `<mark class="kw kw-CATEGORY[ kw-learned]" data-concept="TEXT">ORIGINAL</mark>`, with `kw-learned` exactly for a learned keyword; the original text sits verbatim inside and the markup is longer than it |
| Annotation.OverlapTestIsIntersection | internal/game/annotation.go:101-103 | for non-empty ranges the three-clause overlap test is exactly interval intersection |
| Annotation.AcceptValid | internal/game/annotation.go:98-123 | accepting an occurrence that passes the overlap test keeps the accepted spans pairwise disjoint, genuine and at least that long |
| Annotation.ScanKeywordExtends | internal/game/annotation.go:89-126 | one keyword's scan only appends spans, all of that keyword |
| Annotation.ScanKeywordSearch | internal/game/annotation.go:89-96 | searching the suffix from the search start and adding the start back finds the same occurrence as the absolute-offset search, and stops exactly when it finds none |
| Annotation.ScanKeywordValid | internal/game/annotation.go:89-126 | one keyword's scan keeps the accepted spans disjoint and each one an occurrence of its keyword |
| Annotation.ScanKeywordCovers | internal/game/annotation.go:89-126 | after one keyword's scan every occurrence of it is accepted or blocked by an accepted span of a keyword at least as long |
| Annotation.SelectSpansSound | internal/game/annotation.go:85-127 | over a longest-first order the accepted spans are disjoint, genuine, accepted in non-increasing length, drawn from the keywords, and cover every occurrence of every keyword |
| Annotation.SelectedSpans | internal/game/annotation.go:85-127 | every accepted span lies within the text, is as long as its keyword, and its raw text equals the keyword ignoring case; the spans are disjoint and longest first |
| Annotation.SelectedSpansCover | internal/game/annotation.go:85-127 | every case-insensitive occurrence of any keyword meets an accepted span of a keyword at least as long |
| Annotation.SortByStartApart | internal/game/annotation.go:129-132 | sorting the accepted spans by start keeps them pairwise apart |
| Annotation.SortedSpansChained | internal/game/annotation.go:129-132 | once sorted by start, the accepted spans follow one another inside the text |
| Annotation.WritesUnmark | internal/game/annotation.go:139-147 | putting back the original text of every markup written by the splice loop gives the raw text |
| Annotation.WritesShape | internal/game/annotation.go:139-147 | the splice loop writes a raw gap, then one markup per span in start order, then the tail; gap `i` is exactly the raw text from the end of span `i-1` (or the starting offset) to the start of span `i` (or the end of the text) |
| Annotation.Render | internal/game/annotation.go:62-150 | with no keywords the raw text; otherwise the splice over some permutation of the keywords sorted longest first |
| Annotation.RenderRoundTrip | internal/game/annotation.go:129-149 | the output is raw gaps interleaved with one markup per span in start order, gap `i` being the raw text between span `i-1` and span `i`, and replacing each markup by the text it wraps gives back the raw text |
| Annotation.RenderUnchangedIffNoSpans | internal/game/annotation.go:135-137 | the output equals the raw text exactly when no span was accepted |
| Annotation.RenderPlainUnderRender | internal/game/annotation.go:160-163 | for any longest-first order the rendered pieces give back the plain text once each markup is replaced by the text it wraps, and the rendering is the plain text exactly when no span is selected |
| Annotation.RenderUnmarksToPlain | internal/game/annotation.go:160-163 | the output of `Render` is a sequence of pieces that unwraps to the plain text |
| Annotation.RenderNewText | internal/game/annotation.go:63-65 | a new text without keywords renders as itself, annotated or plain |
| Annotation.NoSpansIffNoMatch | internal/game/annotation.go:85-127 | no span is accepted exactly when no keyword occurs in the text, case ignored |
| Annotation.RenderUnchangedIffNoMatch | internal/game/annotation.go:62-150 | the rendered text equals the raw text exactly when no keyword occurs in it, case ignored |
| Validation.Normalize | internal/game/validation.go:111-124 | the only whitespace left is single plain spaces, never two in a row (a space can remain at an end when the punctuation beside it is stripped, as for `hello .`), and there is no upper case unless matching is case-sensitive |
| Validation.NormalizeJoinsFields | internal/game/validation.go:111-124 | when the answer neither begins nor ends with `.,!?;:`, normalising gives its whitespace-separated words joined by single spaces, lowered unless matching is case-sensitive |
| Validation.NormalizeTrimmed | internal/game/validation.go:120-121 | a normalised answer does not begin or end with `.,!?;:` |
| Strings.FieldsOfTrimSpace | internal/game/validation.go:113-114 | trimming surrounding whitespace before splitting into words changes nothing |
| Validation.NormalizeIgnoringCase | internal/game/validation.go:116-118 | case-insensitive normalisation is the case-sensitive one, lowered |
| Validation.NormalizeWord | internal/game/validation.go:111-124 | a single word with no punctuation at its ends, already lower-case when case is ignored, normalises to itself |
| Validation.ContainsWord | internal/game/validation.go:127-138 | true exactly when some whitespace-separated field, with trailing `.,!?;:` cut off, equals the word |
| Validation.ContainsWordSpaceFree | internal/game/validation.go:127-138 | a word that contains whitespace is never found |
| Validation.ContainsWordThenContains | internal/game/validation.go:55-68 | a whole-word match is also a substring match |
| Validation.NewValidator | internal/game/validation.go:29-36 | a new validator stores the given keywords and required count and matches whole words without regard to case |
| Validation.Validate | internal/game/validation.go:39-82 | no keywords give a correct answer with score 1; otherwise matched and missing are the keywords that do and do not match, in their original order, the score is the matched fraction within [0, 1], and the answer is correct when at least the required number matched |
| Validation.MatchedMissingPartition | internal/game/validation.go:52-70 | matched and missing words split the keyword list: every keyword lands in exactly one, and the lengths add up |
| Validation.PartialFindsMore | internal/game/validation.go:55-68 | substring matching finds at least as many keywords as whole-word matching |
| Validation.MultiWordKeywordMissing | internal/game/validation.go:62-69 | in whole-word mode a keyword that is still several words after normalising is always missing |
| Validation.SortByLength | internal/game/validation.go:141-150 | the result is a permutation of the input ordered by non-increasing length |
| Validation.CountMatches | internal/game/validation.go:210-227 | the selection loop succeeds exactly when every selection is a correct index, and then counts every selection |
| Validation.ValidateChoice | internal/game/validation.go:201-241 | correct exactly when single mode has at most one selection, every selection is a correct index, and in multiple mode the number of selections equals the number of correct indices; a correct answer scores 1; a wrong one scores 0 unless it is in multiple mode with every selection correct, and then selections over correct indices |
| Validation.ValidateChoiceAgreesWithoutRepeats | internal/game/validation.go:209-241 | when neither the correct indices nor the selections repeat an index, the scorer as written gives the same result as the corrected one |
| Validation.ValidateChoiceRepeats | internal/game/validation.go:229-234 | choosing the first of two correct answers twice is accepted, and choosing the only correct answer twice scores 2 |
| Validation.ValidateChoiceIntended | internal/game/validation.go:229-234 | corrected scorer: correct exactly when every selection is correct and, in multiple mode, every correct index was selected; the score lies in [0, 1] and is 1 exactly for a correct answer |
| Story.IndexScenes | internal/story/scene.go:72-75 | the table's keys are exactly the IDs of the scenes, and every entry carries its own key as ID |
| Story.IndexScenesLast | internal/story/scene.go:73-75 | an ID maps to the last scene in the list that carries it |
| Story.LoadScenes | internal/story/scene.go:70-76 | the cache becomes the new scenes and the table's keys are exactly their IDs |
| Story.GetScene | internal/story/scene.go:34-39 | a scene is found exactly when the table has the ID, and it is the scene the table holds for that ID |
| Story.GetSceneAfterLoad | internal/story/scene.go:70-76 | after loading, lookup finds nothing exactly when no scene has the ID, and otherwise the last scene with that ID |
| Story.GetSceneSound | internal/story/scene.go:34-39 | on a loaded registry a found scene carries the requested ID and is one of the cached scenes |
| Story.GetPrefaceScenes | internal/story/scene.go:43-49 | a non-empty cache is returned as it is and the registry is untouched; an empty one loads the scenes read from the file |
| Story.GetPrefaceScenesStable | internal/story/scene.go:43-49 | once scenes are cached, asking again returns the same scenes and changes nothing |
| Grammar.ParseShowId | internal/story/yaml_loader.go:122 | every well-formed chapter, number, optional sub-number and description, printed as an ID, is read back into the same parts |
| Grammar.ShowParseId | internal/story/yaml_loader.go:122 | whatever the ID parser accepts is made of well-formed parts that print back to the text it read |
| Grammar.ValidSceneIdIff | internal/story/yaml_loader.go:114-131 | an ID passes exactly when it is `0` or is spelled by well-formed parts of the pattern |
| Grammar.ValidSceneIdShape | internal/story/yaml_loader.go:114-131 | no valid ID is empty or begins with a minus sign |
| Grammar.SceneIdExample | internal/story/yaml_loader.go:121 | `preface.0:dream-start` is accepted, with chapter `preface`, number `0`, no sub-number and description `dream-start` |
| Grammar.ParseShowPath | internal/story/yaml_loader.go:207 | a well-formed dotted path followed by text that cannot continue it is read back into the same segments and that text |
| Grammar.ShowParsePath | internal/story/yaml_loader.go:207 | whatever the path parser reads is well-formed and prints back to the text it consumed |
| Grammar.ParseShowImpact | internal/story/yaml_loader.go:207 | every well-formed path, sign and amount, printed as an impact, is read back into the same parts |
| Grammar.ShowParseImpact | internal/story/yaml_loader.go:207 | whatever the impact parser accepts is well-formed and prints back to the text it read |
| Grammar.ValidImpactIff | internal/story/yaml_loader.go:203-216 | an impact passes exactly when it is spelled by well-formed parts of the pattern |
| Grammar.ImpactExample | internal/story/yaml_loader.go:205 | `npc.teacher.trust-5` is accepted, with path `npc`, `teacher`, `trust`, sign `-` and amount `5` |
| Strings.TrimSpaceIdempotent | internal/story/yaml_loader.go:100 | trimming a trimmed text changes nothing |
| Loader.ConvertYAMLScene | internal/story/yaml_loader.go:80-111 | fails, carrying the ID, exactly when the ID is invalid; otherwise keeps ID, thread type and `next`, copies every choice's text, `next` and impact in order, trims surrounding whitespace from the text, and sets the minimum length to the validation block's value for an open scene that has one and to 0 for every other scene |
| Loader.ConvertToYAML | internal/story/yaml_loader.go:80-111 | writing a scene the converter could have produced back as YAML and converting it gives the scene again |
| Loader.ConvertedConvertible | internal/story/yaml_loader.go:97-108 | every converted scene is such a scene, so converting is a fixed point on its own output |
| Loader.FirstInvalid | internal/story/yaml_loader.go:62-66 | the position where the conversion loop stops: every earlier ID is valid and the ID there is not |
| Loader.ConvertAll | internal/story/yaml_loader.go:58-69 | succeeds exactly when every ID is valid, giving the converted scenes in file order; otherwise fails with the first invalid ID |
| Loader.ChoiceNextViolations | internal/story/yaml_loader.go:146-150 | reports exactly the choices whose `next` is not `0`, not reserved with a minus sign, and not a loaded ID |
| Loader.ImpactViolations | internal/story/yaml_loader.go:166-172 | reports exactly the choices with a non-empty malformed impact |
| Loader.ChoiceNextViolationsNone | internal/story/yaml_loader.go:146-150 | no choice is reported exactly when every choice's `next` resolves |
| Loader.ImpactViolationsNone | internal/story/yaml_loader.go:166-172 | no impact is reported exactly when every impact is empty or well-formed |
| Loader.SceneViolationsNone | internal/story/yaml_loader.go:137-173 | a scene draws no report exactly when its thread type is known, a multi scene has choices whose nexts all resolve, any other scene has a non-empty resolving `next`, and its impacts are well-formed |
| Loader.GraphViolations | internal/story/yaml_loader.go:137-173 | the collected reports are empty exactly when every scene is sound |
| Loader.GraphViolationsAppend | internal/story/yaml_loader.go:137-173 | the reports of a list are those of its parts, in order: checking never stops at the first defect |
| Loader.ValidateSceneGraph | internal/story/yaml_loader.go:134-180 | succeeds exactly when every scene is sound, and otherwise returns the non-empty list of all reports |
| Loader.EmptyNextReportedTwice | internal/story/yaml_loader.go:152-159 | an empty `next` on an open, affirmative or finisher scene is reported twice, as missing and as unresolved |
| Loader.UnknownTypeSkipsNext | internal/story/yaml_loader.go:161-163 | an unknown thread type is reported once and neither kind of `next` is examined |
| Loader.MultiIgnoresSceneNext | internal/story/yaml_loader.go:140-150 | a multi scene's scene-level `next` is never examined |
| Loader.LoadScenesFromFile | internal/story/yaml_loader.go:58-76 | success gives every scene converted, in file order, forming a sound graph; a conversion failure names the first invalid ID; a graph failure carries all reports |
| Loader.LoadAcceptsRepeatedScene | internal/story/yaml_loader.go:58-76 | repeating a scene of a loadable file keeps it loadable: repeated IDs are not rejected |
| Loader.LoadedNextResolves | internal/story/yaml_loader.go:183-200 | on a sound graph every `next` a scene can move to is `0`, reserved with a minus sign, or found by lookup |
| Resolver.Atoi | cmd/preface/main.go:100 | a parsed index fits in a 64-bit `int`, the text starts with a digit or a sign and every later character is a digit; a plain digit string parses exactly when its value fits, and to that value |
| Resolver.AtoiOfIntToString | cmd/preface/main.go:100 | the decimal text of any 64-bit integer is read back as that integer |
| Resolver.AtoiCanonical | cmd/preface/main.go:100 | on text in the form `%d` prints, printing the parsed value gives the text back |
| Resolver.AtoiLenient | cmd/preface/main.go:100 | a leading `+`, a leading zero, and a zero after the minus sign do not change the parsed value |
| Resolver.RetryMessageNamesLength | cmd/preface/main.go:116 | the number inside the retry message reads back as the minimum length |
| Resolver.Decide | cmd/preface/main.go:97-130 | an internal error exactly for an unknown thread type; an invalid choice exactly for a multi scene whose index does not parse or is out of range; a retry with the minimum-length message exactly for a too-short open response; a multi scene moves to the choice whose index the form's text parses to, with feedback `You chose: ` and the choice's text; a long-enough open response moves to the scene's `next` with `Response recorded.`; affirmative and finisher scenes move to `next` with no feedback |
| Resolver.DecideLeadingZeros | cmd/preface/main.go:99-108 | on a multi scene, the index text with a leading zero selects the same choice as the plain index |
| Resolver.DecideChoice | cmd/preface/main.go:100-108 | posting the index of choice `i` moves to that choice's `next` with feedback `You chose: ` and its text |
| Resolver.AffirmativeIsFinisher | cmd/preface/main.go:122-125 | affirmative and finisher scenes move on identically, to the scene-level `next` with empty feedback |
| Resolver.MultiIgnoresText | cmd/preface/main.go:98-110 | a multi scene ignores the typed text |
| Resolver.OthersIgnoreIndex | cmd/preface/main.go:112-125 | the other thread types ignore the choice index |
| Resolver.OpenRetryNamesLength | cmd/preface/main.go:114-117 | a too-short open response is sent back with `Please provide at least N characters.`, where N reads back as the minimum length |
| Resolver.Resolve | cmd/preface/main.go:73-146 | a non-POST request is refused with 405; every error status is 400, 404, 405 or 500; an unparsable form gives 400 and an unknown current scene gives 404 `Current scene not found`; a refusal of the thread-type switch becomes that error, a retry re-renders the current scene with the message, a move to `0` gives the end screen (and only such a move), a move to a known scene renders it with the feedback, and a move to an unknown scene gives 404 `Next scene not found` |
| Resolver.TerminalNeedsNoScene | cmd/preface/main.go:132-136 | a move to `0` ends the story even when no scene has that ID |
| Resolver.ResolveOnSoundScenes | cmd/preface/main.go:88-145 | on a sound scene list with valid IDs there is never an internal error, and `Next scene not found` comes exactly when the move goes to a `next` reserved with a minus sign |
| Resolver.ResolveOnLoadedFile | cmd/preface/main.go:138-143 | the same for the scenes of any file the loader accepts |
| Resolver.NoSceneIdReserved | internal/story/yaml_loader.go:189-192 | an ID reserved with a minus sign never names a loaded scene |

## Left out

- HTTP plumbing is left out: routing, `renderScene`, `renderEndScreen`, the templates and their execution errors. The handler's request method and the outcome of `ParseForm` are parameters of `Resolve`.
- Reading the scene file and decoding YAML are left out. The loader starts from the decoded `YAMLSceneFile`.
- The lazy global cache of `GetScene` is left out, together with the panic when the scene file cannot be loaded. Registries are values, and the model assumes scenes were loaded before lookup.
- `NumericValidator.ValidateNumeric` and `isNumeric` are left out. They parse floating-point numbers with `fmt.Sscanf` and compare them with a tolerance.
- Validation.Validate: the regular-expression highlighter `annotateMatches` is not modelled. When at least one keyword matched, the highlighted answer is `None`; only the case with no match, where the input comes back unchanged, is stated.
- Validation.Validate: scores are exact `real` quotients of two counts, not `float64` values, so rounding is not modelled.
- Text is ASCII. Lower-casing changes only `A`-`Z`, so byte length and sequence length agree. The source relies on this for `len(userText)` and for the offsets of `Render`. Multi-byte UTF-8 text is not modelled.
- Annotation.Render requires every keyword text to be non-empty. With an empty keyword the source's search offset runs past the end of the text and the slice panics.
- Loader.LoadScenesFromFile returns errors as values (`ConvertFailed`, `GraphInvalid` with a list of `Violation`s) instead of formatted messages. The wording of the messages is not modelled.
- Resolver.Atoi models only which texts parse and to what value. It does not model Go's two error kinds, syntax and range.
- Impacts are validated but never applied, as in the source.
- The `regexp` engine itself is not modelled. The two patterns are recognised by parsers proved equal to their grammars.

## Findings

| source | as written | input that shows it | evidently intended | confidence | as-written member | corrected member |
|---|---|---|---|---|---|---|
| internal/game/validation.go:229-234 | in multiple mode the answer is correct when the number of selections, repeats included, equals the number of correct indices, and the partial score is selections over correct indices | correct indices `[0, 1]`, selections `[0, 0]`: correct although choice 1 was never selected. Correct indices `[0]`, selections `[0, 0]`: score 2.0, outside the documented range 0.0 to 1.0 | correct only when every correct index was selected (the comment at line 229); the score is the fraction of correct indices selected, within [0, 1] | medium, not executed | Validation.ValidateChoiceRepeats | Validation.ValidateChoiceIntended |

=== FILE: annotation.dfy ===
/**
  The keyword annotator of the game package (internal/game/annotation.go): a text
  with concept keywords, rendered as HTML in which every accepted case-insensitive
  occurrence of a keyword is wrapped in a `<mark>` element.
 */
module Annotation {
  import opened Strings
  import opened Sorting

  /** The categories the game uses; any other string is a valid category too. */
  const Mental: string := "mental"
  const Physical: string := "physical"
  const Emotional: string := "emotional"
  const Magic: string := "magic"

  datatype Keyword = Keyword(text: string, category: string, learned: bool)

  datatype AnnotatedText = AnnotatedText(raw: string, keywords: seq<Keyword>)

  /** A text with no keywords yet: nothing in it is annotated. */
  function NewAnnotatedText(text: string): (r: AnnotatedText)
    ensures r.raw == text && |r.keywords| == 0
    ensures forall query :: !HasKeyword(r, query)
  {
    AnnotatedText(text, [])
  }

  // ---------------------------------------------------------------------------
  // Keyword list operations
  // ---------------------------------------------------------------------------

  /** Appends one not-yet-learned keyword; the text and the earlier keywords are kept. */
  function AddKeyword(at: AnnotatedText, text: string, category: string): (r: AnnotatedText)
    ensures r.raw == at.raw
    ensures |r.keywords| == |at.keywords| + 1
    ensures r.keywords[..|at.keywords|] == at.keywords
    ensures r.keywords[|at.keywords|] == Keyword(text, category, false)
  {
    at.(keywords := at.keywords + [Keyword(text, category, false)])
  }

  /** Appends one keyword the player has already learned; the text and the earlier keywords are kept. */
  function AddLearnedKeyword(at: AnnotatedText, text: string, category: string): (r: AnnotatedText)
    ensures r.raw == at.raw
    ensures |r.keywords| == |at.keywords| + 1
    ensures r.keywords[..|at.keywords|] == at.keywords
    ensures r.keywords[|at.keywords|] == Keyword(text, category, true)
  {
    at.(keywords := at.keywords + [Keyword(text, category, true)])
  }

  /** Some keyword of `kws` has a text whose lowercase form is `lowerText`. */
  function AnyTextIs(kws: seq<Keyword>, lowerText: string): (b: bool)
    ensures b <==> exists i :: 0 <= i < |kws| && Lower(kws[i].text) == lowerText
  {
    if |kws| == 0 then false
    else if Lower(kws[0].text) == lowerText then true
    else
      assert forall i :: 1 <= i < |kws| ==> kws[i] == kws[1..][i - 1];
      AnyTextIs(kws[1..], lowerText)
  }

  /** The text is annotated with `text`, compared without regard to case. */
  function HasKeyword(at: AnnotatedText, text: string): (b: bool)
    ensures b <==> exists i :: 0 <= i < |at.keywords| && Lower(at.keywords[i].text) == Lower(text)
  {
    AnyTextIs(at.keywords, Lower(text))
  }

  /** Sets `learned` on every keyword of `kws` whose lowercase text is `lowerText`. */
  function MarkMatching(kws: seq<Keyword>, lowerText: string): (r: seq<Keyword>)
    ensures |r| == |kws|
    ensures forall i :: 0 <= i < |kws| ==>
      r[i] == if Lower(kws[i].text) == lowerText then kws[i].(learned := true) else kws[i]
  {
    if |kws| == 0 then []
    else
      var k := kws[0];
      [if Lower(k.text) == lowerText then k.(learned := true) else k] + MarkMatching(kws[1..], lowerText)
  }

  /** Marks as learned every keyword equal to `text` without regard to case; nothing else changes. */
  function MarkAsLearned(at: AnnotatedText, text: string): (r: AnnotatedText)
    ensures r.raw == at.raw
    ensures |r.keywords| == |at.keywords|
    ensures forall i :: 0 <= i < |at.keywords| ==>
      && r.keywords[i].text == at.keywords[i].text
      && r.keywords[i].category == at.keywords[i].category
      && r.keywords[i].learned == (at.keywords[i].learned || Lower(at.keywords[i].text) == Lower(text))
  {
    at.(keywords := MarkMatching(at.keywords, Lower(text)))
  }

  /** After adding a keyword the text is annotated with it, and with exactly the keywords it had before besides. */
  lemma AddKeywordThenHas(at: AnnotatedText, text: string, category: string, query: string)
    ensures HasKeyword(AddKeyword(at, text, category), text)
    ensures HasKeyword(AddLearnedKeyword(at, text, category), text)
    ensures HasKeyword(AddKeyword(at, text, category), query)
      <==> HasKeyword(at, query) || Lower(query) == Lower(text)
  {
    var r := AddKeyword(at, text, category);
    assert r.keywords[|at.keywords|].text == text;
    assert forall i :: 0 <= i < |at.keywords| ==> r.keywords[i] == at.keywords[i];
    var l := AddLearnedKeyword(at, text, category);
    assert l.keywords[|at.keywords|].text == text;
  }

  /** Marking as learned keeps the set of annotated keywords, leaves every matching keyword learned, and is idempotent. */
  lemma MarkAsLearnedProperties(at: AnnotatedText, text: string, query: string)
    ensures HasKeyword(MarkAsLearned(at, text), query) == HasKeyword(at, query)
    ensures HasKeyword(at, text) ==>
      exists i :: 0 <= i < |at.keywords| && Lower(MarkAsLearned(at, text).keywords[i].text) == Lower(text)
        && MarkAsLearned(at, text).keywords[i].learned
    ensures MarkAsLearned(MarkAsLearned(at, text), text) == MarkAsLearned(at, text)
  {
    var r := MarkAsLearned(at, text);
    var rr := MarkAsLearned(r, text);
    assert forall i :: 0 <= i < |at.keywords| ==> rr.keywords[i] == r.keywords[i];
  }

  /** `RenderPlain`: the text without annotations, which `Render` wraps in markup (see `RenderPlainUnderRender`). */
  function RenderPlain(at: AnnotatedText): string {
    at.raw
  }

  // ---------------------------------------------------------------------------
  // Markup
  // ---------------------------------------------------------------------------

  /** `learnedClass`: the extra CSS class of a learned keyword. */
  function LearnedClass(learned: bool): string {
    if learned then " kw-learned" else ""
  }

  function OpenTag(kw: Keyword): string {
    "<mark class=\"kw kw-" + kw.category + LearnedClass(kw.learned) + "\" data-concept=\"" + kw.text + "\">"
  }

  const CloseTag: string := "</mark>"

  /** The element that replaces one accepted occurrence, wrapping the original-case text. */
  function Markup(kw: Keyword, original: string): string {
    OpenTag(kw) + original + CloseTag
  }

  /** The markup carries the keyword's category, `kw-learned` exactly for a learned keyword, the keyword text, and the original text verbatim. */
  lemma MarkupFormat(kw: Keyword, original: string)
    ensures kw.learned ==> (Markup(kw, original) ==
      "<mark class=\"kw kw-" + kw.category + " kw-learned" + "\" data-concept=\"" + kw.text + "\">" + original + "</mark>")
    ensures !kw.learned ==> (Markup(kw, original) ==
      "<mark class=\"kw kw-" + kw.category + "\" data-concept=\"" + kw.text + "\">" + original + "</mark>")
    ensures Markup(kw, original)[|OpenTag(kw)|..|OpenTag(kw)| + |original|] == original
    ensures |Markup(kw, original)| > |original|
  {
    var pre := "<mark class=\"kw kw-" + kw.category;
    var post := "\" data-concept=\"" + kw.text + "\">";
    if !kw.learned {
      assert pre + "" == pre;
    }
    assert OpenTag(kw) == pre + LearnedClass(kw.learned) + post;
  }

  // ---------------------------------------------------------------------------
  // Span selection
  // ---------------------------------------------------------------------------

  /** An accepted replacement: the offsets `[start, end)` of the raw text and the keyword found there. */
  datatype Span = Span(start: int, end: int, kw: Keyword)

  function StartOf(sp: Span): int {
    sp.start
  }

  /** Sorting keywords by this key puts the longest text first. */
  function NegLength(kw: Keyword): int {
    -|kw.text|
  }

  /** The overlap test of the source: three clauses against one accepted span. */
  predicate OverlapsGo(start: int, end: int, r: Span) {
    || (start >= r.start && start < r.end)
    || (end > r.start && end <= r.end)
    || (start <= r.start && end >= r.end)
  }

  /** `[start, end)` and the span share at least one offset. */
  predicate Intersects(start: int, end: int, r: Span) {
    start < r.end && end > r.start
  }

  /** Two spans share no offset. */
  predicate Apart(a: Span, b: Span) {
    a.end <= b.start || b.end <= a.start
  }

  /** For non-empty ranges the three-clause test is exactly interval intersection. */
  lemma OverlapTestIsIntersection(start: int, end: int, r: Span)
    requires start < end && r.start < r.end
    ensures OverlapsGo(start, end, r) <==> Intersects(start, end, r)
  {
  }

  /** The candidate `[start, end)` overlaps some already accepted span: the inner `for` over the replacements. */
  function OverlapsAny(start: int, end: int, accepted: seq<Span>): bool {
    if |accepted| == 0 then false
    else OverlapsGo(start, end, accepted[0]) || OverlapsAny(start, end, accepted[1..])
  }

  /** The overlap scan answers whether any accepted span fails the three-clause test. */
  lemma {:induction false} OverlapsAnyIff(start: int, end: int, accepted: seq<Span>)
    ensures OverlapsAny(start, end, accepted) <==> exists j :: 0 <= j < |accepted| && OverlapsGo(start, end, accepted[j])
  {
    if |accepted| > 0 {
      OverlapsAnyIff(start, end, accepted[1..]);
      assert forall j :: 1 <= j < |accepted| ==> accepted[j] == accepted[1..][j - 1];
    }
  }

  /**
    The inner loop of `Render` for one keyword: finds each occurrence of `lowerKw` in
    `lowerText` from `searchStart` on, accepts it unless it overlaps an accepted span,
    and resumes one past the start of the occurrence. The search is stated in absolute
    offsets with `IndexFrom`; `ScanKeywordSearch` shows it is the same as searching the
    suffix from `searchStart` and adding `searchStart`, as the loop does.
   */
  function ScanKeyword(lowerText: string, kw: Keyword, lowerKw: string, searchStart: int, accepted: seq<Span>): seq<Span>
    requires 0 <= searchStart <= |lowerText|
    requires |lowerKw| == |kw.text| > 0
    decreases |lowerText| - searchStart
  {
    var idx := IndexFrom(lowerText, lowerKw, searchStart);
    if idx == -1 then accepted
    else
      var actualIdx := idx;
      ScanKeyword(lowerText, kw, lowerKw, actualIdx + 1, Accept(actualIdx, kw, accepted))
  }

  /**
    One step of the scan, written the way the loop computes it: search the suffix from
    `searchStart`, stop on -1, otherwise accept at `searchStart + idx` and resume one past it.
   */
  lemma ScanKeywordSearch(lowerText: string, kw: Keyword, lowerKw: string, searchStart: int, accepted: seq<Span>)
    requires 0 <= searchStart <= |lowerText|
    requires |lowerKw| == |kw.text| > 0
    ensures var idx := Index(lowerText[searchStart..], lowerKw);
      ScanKeyword(lowerText, kw, lowerKw, searchStart, accepted) ==
        if idx == -1 then accepted
        else ScanKeyword(lowerText, kw, lowerKw, searchStart + idx + 1, Accept(searchStart + idx, kw, accepted))
  {
    IndexOfSuffix(lowerText, lowerKw, searchStart);
  }

  /** The occurrence of `kw` at `actualIdx` is appended unless it overlaps an accepted span. */
  function Accept(actualIdx: int, kw: Keyword, accepted: seq<Span>): seq<Span> {
    var endIdx := actualIdx + |kw.text|;
    if OverlapsAny(actualIdx, endIdx, accepted) then accepted
    else accepted + [Span(actualIdx, endIdx, kw)]
  }

  /** The outer loop of `Render`: scans for each keyword in turn, in the given order. */
  function SelectSpans(lowerText: string, order: seq<Keyword>, accepted: seq<Span>): seq<Span>
    requires forall k :: 0 <= k < |order| ==> |order[k].text| > 0
    decreases |order|
  {
    if |order| == 0 then accepted
    else
      var kw := order[0];
      SelectSpans(lowerText, order[1..], ScanKeyword(lowerText, kw, Lower(kw.text), 0, accepted))
  }

  /** The span covers an occurrence of its keyword in the lowered text. */
  ghost predicate FoundIn(lowerText: string, sp: Span) {
    && |sp.kw.text| > 0
    && sp.end == sp.start + |sp.kw.text|
    && OccursAt(lowerText, Lower(sp.kw.text), sp.start)
  }

  ghost predicate AllFound(lowerText: string, spans: seq<Span>) {
    forall j :: 0 <= j < |spans| ==> FoundIn(lowerText, spans[j])
  }

  /** No two spans share an offset. */
  ghost predicate Disjoint(spans: seq<Span>) {
    forall i, j :: 0 <= i < j < |spans| ==> Apart(spans[i], spans[j])
  }

  /** Every span is non-empty and its keyword is at least as long as `n`. */
  ghost predicate AtLeast(spans: seq<Span>, n: int) {
    forall j :: 0 <= j < |spans| ==> spans[j].start < spans[j].end && |spans[j].kw.text| >= n
  }

  /** In acceptance order, keyword lengths never increase. */
  ghost predicate LongestFirst(spans: seq<Span>) {
    forall i, j :: 0 <= i < j < |spans| ==> |spans[i].kw.text| >= |spans[j].kw.text|
  }

  /** Every occurrence of `kw` from offset `from` on meets a span whose keyword is at least as long. */
  ghost predicate CoveredFrom(lowerText: string, kw: Keyword, from: int, spans: seq<Span>) {
    forall p :: from <= p && OccursAt(lowerText, Lower(kw.text), p) ==>
      exists j :: 0 <= j < |spans| && Intersects(p, p + |kw.text|, spans[j]) && |spans[j].kw.text| >= |kw.text|
  }

  /** The scan with no occurrence ahead accepts nothing more. */
  lemma ScanKeywordDone(lowerText: string, kw: Keyword, lowerKw: string, searchStart: int, accepted: seq<Span>)
    requires 0 <= searchStart <= |lowerText|
    requires |lowerKw| == |kw.text| > 0
    requires IndexFrom(lowerText, lowerKw, searchStart) == -1
    ensures ScanKeyword(lowerText, kw, lowerKw, searchStart, accepted) == accepted
  {
  }

  /** The scan with an occurrence ahead is the scan from one past it, with the occurrence accepted unless it overlaps. */
  lemma ScanKeywordStep(lowerText: string, kw: Keyword, lowerKw: string, searchStart: int, accepted: seq<Span>,
                        actualIdx: int, next: seq<Span>)
    requires 0 <= searchStart <= |lowerText|
    requires |lowerKw| == |kw.text| > 0
    requires IndexFrom(lowerText, lowerKw, searchStart) != -1
    requires actualIdx == IndexFrom(lowerText, lowerKw, searchStart)
    requires next == Accept(actualIdx, kw, accepted)
    ensures ScanKeyword(lowerText, kw, lowerKw, searchStart, accepted) == ScanKeyword(lowerText, kw, lowerKw, actualIdx + 1, next)
  {
  }

  /** Scanning only appends, and only spans of the scanned keyword. */
  lemma {:induction false} ScanKeywordExtends(lowerText: string, kw: Keyword, lowerKw: string, searchStart: int, accepted: seq<Span>)
    requires 0 <= searchStart <= |lowerText|
    requires |lowerKw| == |kw.text| > 0
    ensures var r := ScanKeyword(lowerText, kw, lowerKw, searchStart, accepted);
      && |accepted| <= |r|
      && (forall j :: 0 <= j < |accepted| ==> r[j] == accepted[j])
      && (forall j :: |accepted| <= j < |r| ==> r[j].kw == kw)
    decreases |lowerText| - searchStart
  {
    var idx := IndexFrom(lowerText, lowerKw, searchStart);
    if idx == -1 {
      ScanKeywordDone(lowerText, kw, lowerKw, searchStart, accepted);
    } else {
      var actualIdx := idx;
      var next := Accept(actualIdx, kw, accepted);
      ScanKeywordStep(lowerText, kw, lowerKw, searchStart, accepted, actualIdx, next);
      ScanKeywordExtends(lowerText, kw, lowerKw, actualIdx + 1, next);
    }
  }

  /** The accepted spans are genuine occurrences, pairwise apart, of keywords at least `n` long. */
  ghost predicate Valid(lowerText: string, spans: seq<Span>, n: int) {
    AllFound(lowerText, spans) && Disjoint(spans) && AtLeast(spans, n)
  }

  /** One keyword's scan keeps the accepted spans disjoint and genuine. */
  lemma {:induction false} ScanKeywordValid(lowerText: string, kw: Keyword, lowerKw: string, searchStart: int, accepted: seq<Span>)
    requires 0 <= searchStart <= |lowerText|
    requires |kw.text| > 0 && lowerKw == Lower(kw.text)
    requires Valid(lowerText, accepted, |kw.text|)
    ensures Valid(lowerText, ScanKeyword(lowerText, kw, lowerKw, searchStart, accepted), |kw.text|)
    decreases |lowerText| - searchStart
  {
    var idx := IndexFrom(lowerText, lowerKw, searchStart);
    if idx == -1 {
      ScanKeywordDone(lowerText, kw, lowerKw, searchStart, accepted);
    } else {
      var actualIdx := idx;
      var next := Accept(actualIdx, kw, accepted);
      ScanKeywordStep(lowerText, kw, lowerKw, searchStart, accepted, actualIdx, next);
      AcceptValid(lowerText, kw, actualIdx, accepted);
      ScanKeywordValid(lowerText, kw, lowerKw, actualIdx + 1, next);
    }
  }

  /**
    One keyword's scan leaves every occurrence of the keyword from `searchStart` on
    either accepted or blocked by an accepted span of a keyword at least as long.
   */
  lemma {:induction false} ScanKeywordCovers(lowerText: string, kw: Keyword, lowerKw: string, searchStart: int, accepted: seq<Span>)
    requires 0 <= searchStart <= |lowerText|
    requires |kw.text| > 0 && lowerKw == Lower(kw.text)
    requires AtLeast(accepted, |kw.text|)
    ensures CoveredFrom(lowerText, kw, searchStart, ScanKeyword(lowerText, kw, lowerKw, searchStart, accepted))
    decreases |lowerText| - searchStart, 2
  {
    if IndexFrom(lowerText, lowerKw, searchStart) == -1 {
      ScanKeywordDone(lowerText, kw, lowerKw, searchStart, accepted);
    } else {
      ScanKeywordCoversStep(lowerText, kw, lowerKw, searchStart, accepted);
    }
  }

  /** The step of `ScanKeywordCovers` when an occurrence lies ahead. */
  lemma {:induction false} ScanKeywordCoversStep(lowerText: string, kw: Keyword, lowerKw: string, searchStart: int, accepted: seq<Span>)
    requires 0 <= searchStart <= |lowerText|
    requires |kw.text| > 0 && lowerKw == Lower(kw.text)
    requires AtLeast(accepted, |kw.text|)
    requires IndexFrom(lowerText, lowerKw, searchStart) != -1
    ensures CoveredFrom(lowerText, kw, searchStart, ScanKeyword(lowerText, kw, lowerKw, searchStart, accepted))
    decreases |lowerText| - searchStart, 1
  {
    var actualIdx := IndexFrom(lowerText, lowerKw, searchStart);
    var next := Accept(actualIdx, kw, accepted);
    ScanKeywordStep(lowerText, kw, lowerKw, searchStart, accepted, actualIdx, next);
    ScanKeywordCoversAfter(lowerText, kw, lowerKw, searchStart, accepted, actualIdx);
  }

  /** The scan resumed one past the occurrence at `actualIdx`, the first from `searchStart` on, covers from `searchStart`. */
  lemma {:induction false} ScanKeywordCoversAfter(lowerText: string, kw: Keyword, lowerKw: string, searchStart: int,
                                                  accepted: seq<Span>, actualIdx: int)
    requires 0 <= searchStart <= actualIdx < |lowerText|
    requires |kw.text| > 0 && lowerKw == Lower(kw.text)
    requires AtLeast(accepted, |kw.text|)
    requires forall p :: searchStart <= p < actualIdx ==> !OccursAt(lowerText, lowerKw, p)
    ensures CoveredFrom(lowerText, kw, searchStart, ScanKeyword(lowerText, kw, lowerKw, actualIdx + 1, Accept(actualIdx, kw, accepted)))
    decreases |lowerText| - searchStart, 0
  {
    var next := Accept(actualIdx, kw, accepted);
    var j := AcceptCovers(kw, actualIdx, accepted);
    ScanKeywordCovers(lowerText, kw, lowerKw, actualIdx + 1, next);
    ScanKeywordKeeps(lowerText, kw, lowerKw, actualIdx + 1, next, j);
    var r := ScanKeyword(lowerText, kw, lowerKw, actualIdx + 1, next);
    CoveredStep(lowerText, kw, searchStart, actualIdx, r, j);
  }

  /** The scan keeps the accepted span at index `j` in place. */
  lemma ScanKeywordKeeps(lowerText: string, kw: Keyword, lowerKw: string, searchStart: int, accepted: seq<Span>, j: int)
    requires 0 <= searchStart <= |lowerText|
    requires |lowerKw| == |kw.text| > 0
    requires 0 <= j < |accepted|
    ensures var r := ScanKeyword(lowerText, kw, lowerKw, searchStart, accepted);
      j < |r| && r[j] == accepted[j]
  {
    ScanKeywordExtends(lowerText, kw, lowerKw, searchStart, accepted);
  }

  /** Coverage from one past an occurrence extends back over it and over a stretch with no occurrence. */
  lemma CoveredStep(lowerText: string, kw: Keyword, searchStart: int, actualIdx: int, r: seq<Span>, j: int)
    requires searchStart <= actualIdx
    requires forall p :: searchStart <= p < actualIdx ==> !OccursAt(lowerText, Lower(kw.text), p)
    requires 0 <= j < |r| && Intersects(actualIdx, actualIdx + |kw.text|, r[j]) && |r[j].kw.text| >= |kw.text|
    requires CoveredFrom(lowerText, kw, actualIdx + 1, r)
    ensures CoveredFrom(lowerText, kw, searchStart, r)
  {
  }

  /** An occurrence at `actualIdx` that meets no accepted span keeps the spans valid when accepted. */
  lemma AcceptValid(lowerText: string, kw: Keyword, actualIdx: int, accepted: seq<Span>)
    requires |kw.text| > 0
    requires OccursAt(lowerText, Lower(kw.text), actualIdx)
    requires Valid(lowerText, accepted, |kw.text|)
    ensures Valid(lowerText, Accept(actualIdx, kw, accepted), |kw.text|)
  {
    var endIdx := actualIdx + |kw.text|;
    var cand := Span(actualIdx, endIdx, kw);
    OverlapsAnyIff(actualIdx, endIdx, accepted);
    if !OverlapsAny(actualIdx, endIdx, accepted) {
      forall j | 0 <= j < |accepted|
        ensures Apart(accepted[j], cand)
      {
        OverlapTestIsIntersection(actualIdx, endIdx, accepted[j]);
      }
    }
  }

  /** After one step the occurrence at `actualIdx` meets the span at the returned index. */
  lemma AcceptCovers(kw: Keyword, actualIdx: int, accepted: seq<Span>) returns (j: int)
    requires |kw.text| > 0
    requires AtLeast(accepted, |kw.text|)
    ensures var next := Accept(actualIdx, kw, accepted);
      && AtLeast(next, |kw.text|)
      && 0 <= j < |next| && Intersects(actualIdx, actualIdx + |kw.text|, next[j]) && |next[j].kw.text| >= |kw.text|
  {
    var endIdx := actualIdx + |kw.text|;
    OverlapsAnyIff(actualIdx, endIdx, accepted);
    if OverlapsAny(actualIdx, endIdx, accepted) {
      j :| 0 <= j < |accepted| && OverlapsGo(actualIdx, endIdx, accepted[j]);
      OverlapTestIsIntersection(actualIdx, endIdx, accepted[j]);
    } else {
      j := |accepted|;
    }
  }

  /**
    Scanning the keywords longest first keeps the accepted spans disjoint and genuine,
    accepts them in non-increasing keyword length, takes their keywords from the order,
    and leaves every occurrence of every keyword accepted or blocked by a span of a
    keyword at least as long.
   */
  lemma {:induction false} SelectSpansSound(lowerText: string, order: seq<Keyword>, accepted: seq<Span>)
    requires forall k :: 0 <= k < |order| ==> |order[k].text| > 0
    requires SortedBy(order, NegLength)
    requires AllFound(lowerText, accepted) && Disjoint(accepted) && LongestFirst(accepted)
    requires |order| > 0 ==> AtLeast(accepted, |order[0].text|)
    ensures var r := SelectSpans(lowerText, order, accepted);
      && AllFound(lowerText, r) && Disjoint(r) && LongestFirst(r)
      && |accepted| <= |r|
      && (forall j :: 0 <= j < |accepted| ==> r[j] == accepted[j])
      && (forall j :: |accepted| <= j < |r| ==> r[j].kw in order)
      && (forall k :: 0 <= k < |order| ==> CoveredFrom(lowerText, order[k], 0, r))
    decreases |order|
  {
    if |order| > 0 {
      var kw := order[0];
      var scanned := SelectStep(lowerText, kw, accepted);
      var rest := order[1..];
      if |rest| > 0 {
        assert NegLength(order[0]) <= NegLength(order[1]);
      }
      SelectSpansSound(lowerText, rest, scanned);
      var r := SelectSpans(lowerText, rest, scanned);
      assert forall j :: 0 <= j < |scanned| ==> r[j] == scanned[j];
      forall j | |accepted| <= j < |r|
        ensures r[j].kw in order
      {
        if j < |scanned| {
          assert r[j].kw == kw;
        } else {
          assert r[j].kw in rest;
        }
      }
      CoveredFromPrefix(lowerText, kw, scanned, r);
      forall k | 0 <= k < |order|
        ensures CoveredFrom(lowerText, order[k], 0, r)
      {
        if k > 0 {
          assert order[k] == rest[k - 1];
        }
      }
    }
  }

  /** Spans appended after the ones that block an occurrence leave it blocked. */
  lemma CoveredFromPrefix(lowerText: string, kw: Keyword, spans: seq<Span>, longer: seq<Span>)
    requires |spans| <= |longer|
    requires forall j :: 0 <= j < |spans| ==> longer[j] == spans[j]
    requires CoveredFrom(lowerText, kw, 0, spans)
    ensures CoveredFrom(lowerText, kw, 0, longer)
  {
    forall p | 0 <= p && OccursAt(lowerText, Lower(kw.text), p)
      ensures exists j :: 0 <= j < |longer| && Intersects(p, p + |kw.text|, longer[j]) && |longer[j].kw.text| >= |kw.text|
    {
      var j :| 0 <= j < |spans| && Intersects(p, p + |kw.text|, spans[j]) && |spans[j].kw.text| >= |kw.text|;
      assert longer[j] == spans[j];
    }
  }

  /** The scan for one keyword keeps the accepted spans valid and longest first, extends them with that keyword only, and covers it. */
  lemma SelectStep(lowerText: string, kw: Keyword, accepted: seq<Span>) returns (scanned: seq<Span>)
    requires |kw.text| > 0
    requires AllFound(lowerText, accepted) && Disjoint(accepted) && LongestFirst(accepted)
    requires AtLeast(accepted, |kw.text|)
    ensures scanned == ScanKeyword(lowerText, kw, Lower(kw.text), 0, accepted)
    ensures Valid(lowerText, scanned, |kw.text|) && LongestFirst(scanned)
    ensures |accepted| <= |scanned|
    ensures forall j :: 0 <= j < |accepted| ==> scanned[j] == accepted[j]
    ensures forall j :: |accepted| <= j < |scanned| ==> scanned[j].kw == kw
    ensures CoveredFrom(lowerText, kw, 0, scanned)
  {
    scanned := ScanKeyword(lowerText, kw, Lower(kw.text), 0, accepted);
    ScanKeywordValid(lowerText, kw, Lower(kw.text), 0, accepted);
    ScanKeywordCovers(lowerText, kw, Lower(kw.text), 0, accepted);
    ScanKeywordExtends(lowerText, kw, Lower(kw.text), 0, accepted);
    forall i, j | 0 <= i < j < |scanned|
      ensures |scanned[i].kw.text| >= |scanned[j].kw.text|
    {
      if j < |accepted| {
        assert scanned[i] == accepted[i] && scanned[j] == accepted[j];
      }
    }
  }

  // ---------------------------------------------------------------------------
  // Splicing
  // ---------------------------------------------------------------------------

  /** One write to the output builder: raw text copied verbatim, or the markup of one span. */
  datatype Piece = Verbatim(text: string) | Marked(kw: Keyword, original: string)

  /** What one write puts in the output. */
  function Shown(p: Piece): string {
    match p
    case Verbatim(t) => t
    case Marked(kw, o) => Markup(kw, o)
  }

  /** The raw text one write stands for. */
  function Original(p: Piece): string {
    match p
    case Verbatim(t) => t
    case Marked(_, o) => o
  }

  /** The output the writes build. */
  function Flatten(ps: seq<Piece>): string {
    if |ps| == 0 then "" else Shown(ps[0]) + Flatten(ps[1..])
  }

  /** The writes with every markup replaced by the original text it wraps. */
  function Unmark(ps: seq<Piece>): string {
    if |ps| == 0 then "" else Original(ps[0]) + Unmark(ps[1..])
  }

  /** The spans follow each other from `from` on, none starting before the previous one ends, all within `limit`. */
  ghost predicate Chained(spans: seq<Span>, from: int, limit: int) {
    && 0 <= from <= limit
    && (forall i :: 0 <= i < |spans| ==> from <= spans[i].start <= spans[i].end <= limit)
    && (forall i :: 0 <= i < |spans| - 1 ==> spans[i].end <= spans[i + 1].start)
  }

  /** Past the first span, the rest follow on from its end. */
  lemma ChainedTail(spans: seq<Span>, from: int, limit: int)
    requires Chained(spans, from, limit) && |spans| > 0
    ensures Chained(spans[1..], spans[0].end, limit)
  {
    var t := spans[1..];
    forall i | 0 <= i < |t|
      ensures spans[0].end <= t[i].start
    {
      ChainedOrdered(spans, from, limit, 0, i + 1);
    }
  }

  /** A span of a chain ends before any later one starts. */
  lemma {:induction false} ChainedOrdered(spans: seq<Span>, from: int, limit: int, i: int, j: int)
    requires Chained(spans, from, limit) && 0 <= i < j < |spans|
    ensures spans[i].end <= spans[j].start
    decreases j - i
  {
    if j > i + 1 {
      ChainedOrdered(spans, from, limit, i, j - 1);
    }
  }

  /** The writes of the splice loop: the gap before each span, then its markup, then the tail of the text. */
  function Writes(raw: string, spans: seq<Span>, lastEnd: int): seq<Piece>
    requires Chained(spans, lastEnd, |raw|)
    decreases |spans|
  {
    if |spans| == 0 then [Verbatim(raw[lastEnd..])]
    else
      var sp := spans[0];
      ChainedTail(spans, lastEnd, |raw|);
      [Verbatim(raw[lastEnd..sp.start]), Marked(sp.kw, raw[sp.start..sp.end])] + Writes(raw, spans[1..], sp.end)
  }

  /** Putting back the original text of every markup in the writes restores the raw text from `lastEnd` on. */
  lemma {:induction false} WritesUnmark(raw: string, spans: seq<Span>, lastEnd: int)
    requires Chained(spans, lastEnd, |raw|)
    ensures Unmark(Writes(raw, spans, lastEnd)) == raw[lastEnd..]
    decreases |spans|
  {
    if |spans| > 0 {
      var sp := spans[0];
      ChainedTail(spans, lastEnd, |raw|);
      var ps := Writes(raw, spans, lastEnd);
      var tail := Writes(raw, spans[1..], sp.end);
      WritesUnmark(raw, spans[1..], sp.end);
      assert ps[1..][1..] == tail;
      assert Unmark(ps[1..]) == raw[sp.start..sp.end] + raw[sp.end..];
      assert Unmark(ps) == raw[lastEnd..sp.start] + (raw[sp.start..sp.end] + raw[sp.end..]);
      SliceSplit(raw, lastEnd, sp.start, sp.end);
    }
  }

  /** A suffix is the concatenation of its pieces. */
  lemma SliceSplit(s: string, a: int, b: int, c: int)
    requires 0 <= a <= b <= c <= |s|
    ensures s[a..] == s[a..b] + (s[b..c] + s[c..])
  {
  }

  /**
    The raw text between markups: gap `i` runs from the end of span `i - 1` (or from
    `lastEnd` for the first) to the start of span `i` (or to the end of the text for the last).
   */
  function Gap(raw: string, spans: seq<Span>, lastEnd: int, i: int): string
    requires Chained(spans, lastEnd, |raw|) && 0 <= i <= |spans|
  {
    var a := if i == 0 then lastEnd else spans[i - 1].end;
    var b := if i < |spans| then spans[i].start else |raw|;
    assert 0 <= a <= b <= |raw| by {
      if 0 < i < |spans| {
        assert spans[i - 1].end <= spans[i].start;
      }
    }
    raw[a..b]
  }

  /** The writes alternate raw gaps and markups: gap `i` is the raw text before span `i`, and markup `i` wraps span `i`. */
  lemma {:induction false} WritesShape(raw: string, spans: seq<Span>, lastEnd: int)
    requires Chained(spans, lastEnd, |raw|)
    ensures var ps := Writes(raw, spans, lastEnd);
      && |ps| == 2 * |spans| + 1
      && (forall i :: 0 <= i <= |spans| ==> ps[2 * i] == Verbatim(Gap(raw, spans, lastEnd, i)))
      && (forall i :: 0 <= i < |spans| ==>
            ps[2 * i + 1] == Marked(spans[i].kw, raw[spans[i].start..spans[i].end]))
    decreases |spans|
  {
    if |spans| == 0 {
      assert raw[lastEnd..] == raw[lastEnd..|raw|];
    } else {
      var sp := spans[0];
      ChainedTail(spans, lastEnd, |raw|);
      var tail := Writes(raw, spans[1..], sp.end);
      var ps := [Verbatim(raw[lastEnd..sp.start]), Marked(sp.kw, raw[sp.start..sp.end])] + tail;
      assert Writes(raw, spans, lastEnd) == ps;
      WritesShape(raw, spans[1..], sp.end);
      assert ps[0] == Verbatim(Gap(raw, spans, lastEnd, 0));
      forall i | 1 <= i <= |spans|
        ensures ps[2 * i] == Verbatim(Gap(raw, spans, lastEnd, i))
      {
        assert ps[2 * i] == tail[2 * (i - 1)];
        assert Gap(raw, spans[1..], sp.end, i - 1) == Gap(raw, spans, lastEnd, i);
      }
      forall i | 1 <= i < |spans|
        ensures ps[2 * i + 1] == tail[2 * (i - 1) + 1] && spans[i] == spans[1..][i - 1]
      {
      }
    }
  }

  /** The markup of a piece is never shorter than its original text, and strictly longer for a markup. */
  lemma {:induction false} FlattenLonger(ps: seq<Piece>)
    ensures |Flatten(ps)| >= |Unmark(ps)|
    ensures (exists i :: 0 <= i < |ps| && ps[i].Marked?) ==> |Flatten(ps)| > |Unmark(ps)|
  {
    if |ps| > 0 {
      FlattenLonger(ps[1..]);
      if ps[0].Marked? {
        MarkupFormat(ps[0].kw, ps[0].original);
      }
      assert forall i :: 1 <= i < |ps| ==> ps[i] == ps[1..][i - 1];
    }
  }

  /** Inserting a span apart from all others keeps a sorted list pairwise apart. */
  lemma {:induction false} InsertApart(x: Span, s: seq<Span>)
    requires SortedBy(s, StartOf) && Disjoint(s)
    requires forall j :: 0 <= j < |s| ==> Apart(x, s[j])
    ensures Disjoint(Insert(x, s, StartOf))
  {
    if |s| == 0 {
    } else if StartOf(x) <= StartOf(s[0]) {
      ConsApart(x, s);
    } else {
      InsertApart(x, s[1..]);
      InsertApartBehind(x, s);
    }
  }

  /** When `x` goes behind the head, the head is apart from everything it is put in front of. */
  lemma InsertApartBehind(x: Span, s: seq<Span>)
    requires |s| > 0 && StartOf(x) > StartOf(s[0])
    requires SortedBy(s, StartOf) && Disjoint(s)
    requires forall j :: 0 <= j < |s| ==> Apart(x, s[j])
    requires Disjoint(Insert(x, s[1..], StartOf))
    ensures Disjoint(Insert(x, s, StartOf))
  {
    var tail := Insert(x, s[1..], StartOf);
    assert Insert(x, s, StartOf) == [s[0]] + tail;
    assert multiset(tail) == multiset(s[1..]) + multiset{x};
    assert Apart(s[0], x);
    forall j | 0 <= j < |tail|
      ensures Apart(s[0], tail[j])
    {
      assert tail[j] in multiset(tail);
      if tail[j] != x {
        assert tail[j] in s[1..];
        var k :| 0 <= k < |s| - 1 && s[1..][k] == tail[j];
        assert Apart(s[0], s[k + 1]);
      }
    }
    ConsApart(s[0], tail);
  }

  /** A span apart from every span of a disjoint list can be put in front of it. */
  lemma ConsApart(x: Span, s: seq<Span>)
    requires Disjoint(s)
    requires forall j :: 0 <= j < |s| ==> Apart(x, s[j])
    ensures Disjoint([x] + s)
  {
    var r := [x] + s;
    forall i, j | 0 <= i < j < |r|
      ensures Apart(r[i], r[j])
    {
      assert r[j] == s[j - 1];
      if i > 0 {
        assert r[i] == s[i - 1];
      }
    }
  }

  /** Sorting spans by start keeps them pairwise apart. */
  lemma {:induction false} SortByStartApart(s: seq<Span>)
    requires Disjoint(s)
    ensures Disjoint(SortBy(s, StartOf))
  {
    if |s| > 0 {
      var t := SortBy(s[1..], StartOf);
      SortByStartApart(s[1..]);
      forall j | 0 <= j < |t|
        ensures Apart(s[0], t[j])
      {
        assert t[j] in multiset(s[1..]);
        var k :| 1 <= k < |s| && s[k] == t[j];
      }
      InsertApart(s[0], t);
    }
  }

  /** Disjoint non-empty spans sorted by start follow each other. */
  lemma SortedDisjointChained(s: seq<Span>, from: int, limit: int)
    requires SortedBy(s, StartOf) && Disjoint(s)
    requires 0 <= from <= limit
    requires forall j :: 0 <= j < |s| ==> from <= s[j].start < s[j].end <= limit
    ensures Chained(s, from, limit)
  {
    forall i | 0 <= i < |s| - 1
      ensures s[i].end <= s[i + 1].start
    {
      assert Apart(s[i], s[i + 1]);
      assert StartOf(s[i]) <= StartOf(s[i + 1]);
    }
  }

  /** The spans `Render` splices, sorted by start. */
  function SortedSpans(raw: string, order: seq<Keyword>): seq<Span>
    requires forall k :: 0 <= k < |order| ==> |order[k].text| > 0
  {
    SortBy(SelectSpans(Lower(raw), order, []), StartOf)
  }

  /** The spans selected for a longest-first order, once sorted by start, follow each other within the text. */
  lemma SortedSpansChained(raw: string, order: seq<Keyword>)
    requires forall k :: 0 <= k < |order| ==> |order[k].text| > 0
    requires SortedBy(order, NegLength)
    ensures Chained(SortedSpans(raw, order), 0, |raw|)
  {
    var spans := SelectSpans(Lower(raw), order, []);
    SelectSpansSound(Lower(raw), order, []);
    var sorted := SortBy(spans, StartOf);
    SortByStartApart(spans);
    forall j | 0 <= j < |sorted|
      ensures 0 <= sorted[j].start < sorted[j].end <= |raw|
    {
      assert sorted[j] in multiset(spans);
    }
    SortedDisjointChained(sorted, 0, |raw|);
  }

  /**
    `Render` after its keywords have been sorted: `order` is the sorted keyword list,
    longest text first, in whichever order the unstable sort left equal lengths.
   */
  function RenderOrdered(raw: string, order: seq<Keyword>): string
    requires forall k :: 0 <= k < |order| ==> |order[k].text| > 0
    requires SortedBy(order, NegLength)
  {
    var spans := SortedSpans(raw, order);
    if |spans| == 0 then raw
    else
      SortedSpansChained(raw, order);
      Flatten(Writes(raw, spans, 0))
  }

  /**
    `Render`: with no keywords the raw text; otherwise the keywords sorted longest first
    and rendered by `RenderOrdered`. A keyword with empty text makes the source slice
    past the end of the text, so every keyword text is required to be non-empty.
   */
  function Render(at: AnnotatedText): (r: string)
    requires forall k :: 0 <= k < |at.keywords| ==> |at.keywords[k].text| > 0
    ensures |at.keywords| == 0 ==> r == at.raw
    ensures exists order: seq<Keyword> ::
      && multiset(order) == multiset(at.keywords)
      && SortedBy(order, NegLength)
      && (forall k :: 0 <= k < |order| ==> |order[k].text| > 0)
      && r == RenderOrdered(at.raw, order)
  {
    if |at.keywords| == 0 then
      assert RenderOrdered(at.raw, []) == at.raw;
      at.raw
    else
      var order := SortBy(at.keywords, NegLength);
      assert forall k :: 0 <= k < |order| ==> |order[k].text| > 0 by {
        forall k | 0 <= k < |order|
          ensures |order[k].text| > 0
        {
          assert order[k] in multiset(at.keywords);
        }
      }
      RenderOrdered(at.raw, order)
  }

  /** The accepted spans, in acceptance order: disjoint, longest first, and each one an occurrence of its keyword. */
  lemma SelectedSpans(raw: string, order: seq<Keyword>)
    requires forall k :: 0 <= k < |order| ==> |order[k].text| > 0
    requires SortedBy(order, NegLength)
    ensures var spans := SelectSpans(Lower(raw), order, []);
      && Disjoint(spans)
      && LongestFirst(spans)
      && (forall j :: 0 <= j < |spans| ==>
            && spans[j].kw in order
            && 0 <= spans[j].start < spans[j].end <= |raw|
            && spans[j].end - spans[j].start == |spans[j].kw.text|
            && Lower(raw[spans[j].start..spans[j].end]) == Lower(spans[j].kw.text))
  {
    var spans := SelectSpans(Lower(raw), order, []);
    SelectSpansSound(Lower(raw), order, []);
    forall j | 0 <= j < |spans|
      ensures Lower(raw[spans[j].start..spans[j].end]) == Lower(spans[j].kw.text)
    {
      LowerSlice(raw, spans[j].start, spans[j].end);
    }
  }

  /** Every occurrence of a keyword, case ignored, meets an accepted span of a keyword at least as long. */
  lemma SelectedSpansCover(raw: string, order: seq<Keyword>)
    requires forall k :: 0 <= k < |order| ==> |order[k].text| > 0
    requires SortedBy(order, NegLength)
    ensures var spans := SelectSpans(Lower(raw), order, []);
      forall k, p :: 0 <= k < |order| && OccursAt(Lower(raw), Lower(order[k].text), p) ==>
        exists j :: 0 <= j < |spans| && Intersects(p, p + |order[k].text|, spans[j])
          && |spans[j].kw.text| >= |order[k].text|
  {
    var spans := SelectSpans(Lower(raw), order, []);
    SelectSpansSound(Lower(raw), order, []);
    forall k, p | 0 <= k < |order| && OccursAt(Lower(raw), Lower(order[k].text), p)
      ensures exists j :: (0 <= j < |spans| && Intersects(p, p + |order[k].text|, spans[j])
        && |spans[j].kw.text| >= |order[k].text|)
    {
      assert CoveredFrom(Lower(raw), order[k], 0, spans);
    }
  }

  /**
    The rendered text is the writes of the splice: raw gaps and one markup per accepted
    span, in start order; replacing every markup by the original text it wraps gives
    back the raw text.
   */
  lemma RenderRoundTrip(raw: string, order: seq<Keyword>)
    requires forall k :: 0 <= k < |order| ==> |order[k].text| > 0
    requires SortedBy(order, NegLength)
    ensures Chained(SortedSpans(raw, order), 0, |raw|)
    ensures var spans := SortedSpans(raw, order);
      var ps := Writes(raw, spans, 0);
      && RenderOrdered(raw, order) == Flatten(ps)
      && Unmark(ps) == raw
      && |ps| == 2 * |spans| + 1
      && (forall i :: 0 <= i <= |spans| ==> ps[2 * i] == Verbatim(Gap(raw, spans, 0, i)))
      && (forall i :: 0 <= i < |spans| ==>
            && ps[2 * i + 1] == Marked(spans[i].kw, raw[spans[i].start..spans[i].end])
            && (i + 1 < |spans| ==> spans[i].end <= spans[i + 1].start))
  {
    SortedSpansChained(raw, order);
    var spans := SortedSpans(raw, order);
    WritesUnmark(raw, spans, 0);
    WritesShape(raw, spans, 0);
    if |spans| == 0 {
      assert Flatten(Writes(raw, spans, 0)) == raw[0..] + "";
    }
  }

  /** The splice changes the text exactly when some span was accepted: every markup is longer than what it wraps. */
  lemma RenderUnchangedIffNoSpans(raw: string, order: seq<Keyword>)
    requires forall k :: 0 <= k < |order| ==> |order[k].text| > 0
    requires SortedBy(order, NegLength)
    ensures RenderOrdered(raw, order) == raw <==> |SortedSpans(raw, order)| == 0
  {
    RenderRoundTrip(raw, order);
    var spans := SortedSpans(raw, order);
    if |spans| > 0 {
      var ps := Writes(raw, spans, 0);
      assert ps[1].Marked?;
      FlattenLonger(ps);
    }
  }

  /**
    `RenderPlain` is what `Render` annotates: whatever order the keywords were sorted in,
    the rendered pieces give back the plain text once every markup is replaced by the
    text it wraps, and the rendering is the plain text exactly when no span is selected.
   */
  lemma RenderPlainUnderRender(at: AnnotatedText, order: seq<Keyword>)
    requires forall k :: 0 <= k < |order| ==> |order[k].text| > 0
    requires SortedBy(order, NegLength)
    ensures Chained(SortedSpans(at.raw, order), 0, |at.raw|)
    ensures var ps := Writes(at.raw, SortedSpans(at.raw, order), 0);
      RenderOrdered(at.raw, order) == Flatten(ps) && Unmark(ps) == RenderPlain(at)
    ensures RenderOrdered(at.raw, order) == RenderPlain(at) <==> |SortedSpans(at.raw, order)| == 0
  {
    RenderRoundTrip(at.raw, order);
    RenderUnchangedIffNoSpans(at.raw, order);
  }

  /** The rendering of any annotated text is a sequence of pieces that unwraps to `RenderPlain`. */
  lemma RenderUnmarksToPlain(at: AnnotatedText)
    requires forall k :: 0 <= k < |at.keywords| ==> |at.keywords[k].text| > 0
    ensures exists ps: seq<Piece> :: Render(at) == Flatten(ps) && Unmark(ps) == RenderPlain(at)
  {
    var r := Render(at);
    var order: seq<Keyword> :| && multiset(order) == multiset(at.keywords)
      && SortedBy(order, NegLength)
      && (forall k :: 0 <= k < |order| ==> |order[k].text| > 0)
      && r == RenderOrdered(at.raw, order);
    RenderPlainUnderRender(at, order);
    var ps := Writes(at.raw, SortedSpans(at.raw, order), 0);
    assert r == Flatten(ps) && Unmark(ps) == RenderPlain(at);
  }

  /** A new text renders as itself, in both the annotated and the plain form. */
  lemma RenderNewText(text: string)
    ensures Render(NewAnnotatedText(text)) == text
    ensures RenderPlain(NewAnnotatedText(text)) == text
  {
  }

  /** Some span is accepted exactly when some keyword occurs in the lowered text. */
  lemma NoSpansIffNoMatch(lowerText: string, order: seq<Keyword>)
    requires forall k :: 0 <= k < |order| ==> |order[k].text| > 0
    requires SortedBy(order, NegLength)
    ensures |SelectSpans(lowerText, order, [])| == 0
      <==> forall k, p :: 0 <= k < |order| ==> !OccursAt(lowerText, Lower(order[k].text), p)
  {
    var selected := SelectSpans(lowerText, order, []);
    SelectSpansSound(lowerText, order, []);
    if |selected| > 0 {
      assert FoundIn(lowerText, selected[0]);
      var k :| 0 <= k < |order| && order[k] == selected[0].kw;
      assert OccursAt(lowerText, Lower(order[k].text), selected[0].start);
    } else {
      forall k, p | 0 <= k < |order|
        ensures !OccursAt(lowerText, Lower(order[k].text), p)
      {
        assert CoveredFrom(lowerText, order[k], 0, selected);
      }
    }
  }

  /** The text comes back unchanged exactly when no keyword occurs in it, case ignored. */
  lemma RenderUnchangedIffNoMatch(raw: string, order: seq<Keyword>)
    requires forall k :: 0 <= k < |order| ==> |order[k].text| > 0
    requires SortedBy(order, NegLength)
    ensures RenderOrdered(raw, order) == raw
      <==> forall k, p :: 0 <= k < |order| ==> !OccursAt(Lower(raw), Lower(order[k].text), p)
  {
    RenderUnchangedIffNoSpans(raw, order);
    NoSpansIffNoMatch(Lower(raw), order);
    var selected := SelectSpans(Lower(raw), order, []);
    assert |SortedSpans(raw, order)| == |multiset(selected)|;
  }
}

=== FILE: grammar.dfy ===
/**
  The two formats the scene loader checks with regular expressions
  (internal/story/yaml_loader.go): scene IDs, `chapter.number(.sub)?:description`,
  and choice impacts, `entity.attribute(.attribute)*±value`. Each pattern is
  anchored at both ends and deterministic, so it is read here by a hand-written
  parser into its parts; the grammar is the printer of those parts, and the two
  are proved inverse.
 */
module Grammar {
  import opened Wrappers
  import opened Strings

  predicate IsLowerLetter(c: char) {
    'a' <= c <= 'z'
  }

  /** `[a-z0-9]` */
  predicate IsChapterChar(c: char) {
    IsLowerLetter(c) || IsDigit(c)
  }

  /** `[a-z0-9-]` */
  predicate IsSlugChar(c: char) {
    IsChapterChar(c) || c == '-'
  }

  /** `[a-z_]` */
  predicate IsNameChar(c: char) {
    IsLowerLetter(c) || c == '_'
  }

  /** `[+-]` */
  predicate IsSign(c: char) {
    c == '+' || c == '-'
  }

  /** `s` is one or more characters of the class `p`. */
  predicate NonEmptyOf(s: string, p: char -> bool) {
    |s| > 0 && forall i :: 0 <= i < |s| ==> p(s[i])
  }

  /** A run of `p`-characters followed by text that does not start with one is split where the run ends. */
  lemma RunLenConcat(w: string, t: string, p: char -> bool)
    requires forall i :: 0 <= i < |w| ==> p(w[i])
    requires t == [] || !p(t[0])
    ensures RunLen(w + t, p) == |w|
    ensures (w + t)[..|w|] == w && (w + t)[|w|..] == t
  {
    RunLenOfRun(w + t, p, |w|);
  }

  // ---------------------------------------------------------------------------
  // Scene IDs
  // ---------------------------------------------------------------------------

  /** The parts of `[a-z0-9]+ "." [0-9]+ ("." [0-9]+)? ":" [a-z0-9-]+`. */
  datatype SceneIdParts = SceneIdParts(chapter: string, number: string, sub: Option<string>, description: string)

  predicate WellFormedId(p: SceneIdParts) {
    && NonEmptyOf(p.chapter, IsChapterChar)
    && NonEmptyOf(p.number, IsDigit)
    && (p.sub.Some? ==> NonEmptyOf(p.sub.value, IsDigit))
    && NonEmptyOf(p.description, IsSlugChar)
  }

  function SubText(sub: Option<string>): string {
    match sub
    case None => ""
    case Some(d) => "." + d
  }

  /** What follows the scene number: the optional sub-number, the colon and the description. */
  function IdTail(p: SceneIdParts): string {
    SubText(p.sub) + (":" + p.description)
  }

  /** The ID the parts spell, for example `preface.0:dream-start`. */
  function ShowId(p: SceneIdParts): string {
    p.chapter + ("." + (p.number + IdTail(p)))
  }

  /** Where the scene-ID reader is, with the parts it has read so far. */
  datatype IdStage =
    | AtChapter
    | AtNumber(chapter: string)
    | AtSub(chapter: string, number: string)
    | AtDescription(chapter: string, number: string, sub: Option<string>)

  /**
    Reads the rest `s` of a scene ID from `stage` on: the chapter, then a dot;
    the scene number, then either a dot and a sub-number or the colon; the
    sub-number, then the colon; the description, which runs to the end.
   */
  function ParseIdFrom(stage: IdStage, s: string): Option<SceneIdParts>
    decreases |s|
  {
    match stage
    case AtChapter =>
      var a := RunLen(s, IsChapterChar);
      var rest := s[a..];
      if a == 0 || |rest| == 0 || rest[0] != '.' then None
      else ParseIdFrom(AtNumber(s[..a]), rest[1..])
    case AtNumber(chapter) =>
      var b := RunLen(s, IsDigit);
      var rest := s[b..];
      if b == 0 || |rest| == 0 then None
      else if rest[0] == '.' then ParseIdFrom(AtSub(chapter, s[..b]), rest[1..])
      else if rest[0] == ':' then ParseIdFrom(AtDescription(chapter, s[..b], None), rest[1..])
      else None
    case AtSub(chapter, number) =>
      var c := RunLen(s, IsDigit);
      var rest := s[c..];
      if c == 0 || |rest| == 0 || rest[0] != ':' then None
      else ParseIdFrom(AtDescription(chapter, number, Some(s[..c])), rest[1..])
    case AtDescription(chapter, number, sub) =>
      if NonEmptyOf(s, IsSlugChar) then Some(SceneIdParts(chapter, number, sub, s)) else None
  }

  /** Reads a whole scene ID. */
  function ParseSceneId(s: string): Option<SceneIdParts> {
    ParseIdFrom(AtChapter, s)
  }

  lemma ParseShowDescription(chapter: string, number: string, sub: Option<string>, description: string)
    requires NonEmptyOf(description, IsSlugChar)
    ensures ParseIdFrom(AtDescription(chapter, number, sub), description) == Some(SceneIdParts(chapter, number, sub, description))
  {
  }

  lemma ParseShowSub(chapter: string, number: string, d: string, description: string)
    requires NonEmptyOf(d, IsDigit) && NonEmptyOf(description, IsSlugChar)
    ensures ParseIdFrom(AtSub(chapter, number), d + (":" + description)) == Some(SceneIdParts(chapter, number, Some(d), description))
  {
    RunLenConcat(d, ":" + description, IsDigit);
    assert (":" + description)[1..] == description;
    ParseShowDescription(chapter, number, Some(d), description);
  }

  lemma ParseShowNumber(p: SceneIdParts)
    requires WellFormedId(p)
    ensures ParseIdFrom(AtNumber(p.chapter), p.number + IdTail(p)) == Some(p)
  {
    var t := IdTail(p);
    RunLenConcat(p.number, t, IsDigit);
    match p.sub
    case None =>
      assert t[1..] == p.description;
      ParseShowDescription(p.chapter, p.number, None, p.description);
    case Some(d) =>
      assert t[1..] == d + (":" + p.description);
      ParseShowSub(p.chapter, p.number, d, p.description);
  }

  /** Printing well-formed parts and reading them back gives the same parts. */
  lemma ParseShowId(p: SceneIdParts)
    requires WellFormedId(p)
    ensures ParseSceneId(ShowId(p)) == Some(p)
  {
    var r := p.number + IdTail(p);
    RunLenConcat(p.chapter, "." + r, IsChapterChar);
    assert ("." + r)[1..] == r;
    ParseShowNumber(p);
  }

  lemma ShowParseDescription(chapter: string, number: string, sub: Option<string>, s: string, p: SceneIdParts)
    requires ParseIdFrom(AtDescription(chapter, number, sub), s) == Some(p)
    ensures p == SceneIdParts(chapter, number, sub, s) && NonEmptyOf(s, IsSlugChar)
  {
  }

  lemma ShowParseSub(chapter: string, number: string, s: string, p: SceneIdParts)
    requires ParseIdFrom(AtSub(chapter, number), s) == Some(p)
    ensures p.chapter == chapter && p.number == number && p.sub.Some?
    ensures NonEmptyOf(p.sub.value, IsDigit) && NonEmptyOf(p.description, IsSlugChar)
    ensures p.sub.value + (":" + p.description) == s
  {
    var c := RunLen(s, IsDigit);
    var rest := s[c..];
    ShowParseDescription(chapter, number, Some(s[..c]), rest[1..], p);
    assert s == s[..c] + (":" + rest[1..]);
  }

  /** After a dot, the number stage hands over to the sub-number stage. */
  lemma ShowParseNumberDot(chapter: string, number: string, rest: string, p: SceneIdParts)
    requires |rest| > 0 && rest[0] == '.'
    requires ParseIdFrom(AtSub(chapter, number), rest[1..]) == Some(p)
    ensures p.chapter == chapter && p.number == number
    ensures p.sub.Some? && NonEmptyOf(p.sub.value, IsDigit) && NonEmptyOf(p.description, IsSlugChar)
    ensures IdTail(p) == rest
  {
    ShowParseSub(chapter, number, rest[1..], p);
    var d := p.sub.value;
    calc {
      IdTail(p);
      ("." + d) + (":" + p.description);
      "." + (d + (":" + p.description));
      "." + rest[1..];
      rest;
    }
  }

  /** After a colon, the number stage hands over to the description. */
  lemma ShowParseNumberColon(chapter: string, number: string, rest: string, p: SceneIdParts)
    requires |rest| > 0 && rest[0] == ':'
    requires ParseIdFrom(AtDescription(chapter, number, None), rest[1..]) == Some(p)
    ensures p.chapter == chapter && p.number == number && p.sub.None?
    ensures NonEmptyOf(p.description, IsSlugChar)
    ensures IdTail(p) == rest
  {
    ShowParseDescription(chapter, number, None, rest[1..], p);
    assert IdTail(p) == ":" + rest[1..] == rest;
  }

  lemma ShowParseNumber(chapter: string, s: string, p: SceneIdParts)
    requires ParseIdFrom(AtNumber(chapter), s) == Some(p)
    ensures p.chapter == chapter && NonEmptyOf(p.number, IsDigit)
    ensures p.sub.Some? ==> NonEmptyOf(p.sub.value, IsDigit)
    ensures NonEmptyOf(p.description, IsSlugChar)
    ensures p.number + IdTail(p) == s
  {
    var b := RunLen(s, IsDigit);
    var rest := s[b..];
    if rest[0] == '.' {
      ShowParseNumberDot(chapter, s[..b], rest, p);
    } else {
      ShowParseNumberColon(chapter, s[..b], rest, p);
    }
    assert s == s[..b] + rest;
  }

  /** The first stage of a successful parse: a chapter, a dot, and the rest read by the number stage. */
  lemma ParseSceneIdStage(s: string, p: SceneIdParts) returns (a: nat)
    requires ParseSceneId(s) == Some(p)
    ensures 0 < a < |s| && NonEmptyOf(s[..a], IsChapterChar)
    ensures ParseIdFrom(AtNumber(s[..a]), s[a + 1..]) == Some(p)
    ensures s == s[..a] + ("." + s[a + 1..])
  {
    a := RunLen(s, IsChapterChar);
    var rest := s[a..];
    assert a > 0 && |rest| > 0 && rest[0] == '.';
    assert rest[1..] == s[a + 1..];
    assert s == s[..a] + ("." + rest[1..]);
  }

  /** Whatever the parser accepts is well-formed and prints back to the text it read. */
  lemma ShowParseId(s: string, p: SceneIdParts)
    requires ParseSceneId(s) == Some(p)
    ensures WellFormedId(p) && ShowId(p) == s
  {
    var a := ParseSceneIdStage(s, p);
    ShowParseNumber(s[..a], s[a + 1..], p);
  }

  /** `validateSceneID`: the terminal ID `0`, or an ID of the pattern. */
  predicate ValidSceneId(id: string) {
    id == "0" || ParseSceneId(id).Some?
  }

  /** An ID passes exactly when it is `0` or some well-formed parts spell it. */
  lemma ValidSceneIdIff(id: string)
    ensures ValidSceneId(id) <==> id == "0" || exists p :: WellFormedId(p) && ShowId(p) == id
  {
    if ParseSceneId(id).Some? {
      ShowParseId(id, ParseSceneId(id).value);
    }
    if exists p :: WellFormedId(p) && ShowId(p) == id {
      var p :| WellFormedId(p) && ShowId(p) == id;
      ParseShowId(p);
    }
  }

  /** No scene ID is empty or begins with a minus sign. */
  lemma ValidSceneIdShape(id: string)
    requires ValidSceneId(id)
    ensures |id| > 0 && id[0] != '-'
  {
    if id != "0" {
      var p := ParseSceneId(id).value;
      ShowParseId(id, p);
      assert id[0] == p.chapter[0];
    }
  }

  // ---------------------------------------------------------------------------
  // Impacts
  // ---------------------------------------------------------------------------

  /** The parts of `[a-z_]+ ("." [a-z_]+)* [+-] [0-9]+`: the dotted path, the sign and the amount. */
  datatype ImpactParts = ImpactParts(path: seq<string>, sign: char, amount: string)

  predicate WellFormedPath(path: seq<string>) {
    |path| > 0 && forall k :: 0 <= k < |path| ==> NonEmptyOf(path[k], IsNameChar)
  }

  predicate WellFormedImpact(p: ImpactParts) {
    WellFormedPath(p.path) && IsSign(p.sign) && NonEmptyOf(p.amount, IsDigit)
  }

  /** The path segments joined by dots, followed by `tail`. */
  function ShowPath(path: seq<string>, tail: string): string
    requires |path| > 0
  {
    if |path| == 1 then path[0] + tail
    else path[0] + ("." + ShowPath(path[1..], tail))
  }

  /** The impact the parts spell, for example `npc.teacher.trust-5`. */
  function ShowImpact(p: ImpactParts): string
    requires |p.path| > 0
  {
    ShowPath(p.path, [p.sign] + p.amount)
  }

  /** Reads dot-separated segments and returns them with the text that follows. */
  function ParsePath(s: string): Option<(seq<string>, string)>
    decreases |s|
  {
    var n := RunLen(s, IsNameChar);
    var rest := s[n..];
    if n == 0 then None
    else if |rest| > 0 && rest[0] == '.' then
      match ParsePath(rest[1..])
      case None => None
      case Some((segs, tail)) => Some(([s[..n]] + segs, tail))
    else Some(([s[..n]], rest))
  }

  /** Reads a whole impact: the path, one sign, then digits to the end. */
  function ParseImpact(s: string): Option<ImpactParts> {
    match ParsePath(s)
    case None => None
    case Some((path, rest)) =>
      if |rest| > 0 && IsSign(rest[0]) && NonEmptyOf(rest[1..], IsDigit) then Some(ImpactParts(path, rest[0], rest[1..]))
      else None
  }

  /** What may follow a path: nothing, or a character that can neither extend a segment nor start a new one. */
  predicate PathEnds(tail: string) {
    tail == [] || (!IsNameChar(tail[0]) && tail[0] != '.')
  }

  /** A final segment is read up to the text that follows it. */
  lemma ParsePathLast(w: string, tail: string)
    requires NonEmptyOf(w, IsNameChar) && PathEnds(tail)
    ensures ParsePath(w + tail) == Some(([w], tail))
  {
    RunLenConcat(w, tail, IsNameChar);
  }

  /** A segment followed by a dot is read, then the rest of the path. */
  lemma ParsePathCons(w: string, more: string)
    requires NonEmptyOf(w, IsNameChar)
    ensures ParsePath(w + ("." + more)) ==
      match ParsePath(more)
      case None => None
      case Some((segs, tail)) => Some(([w] + segs, tail))
  {
    RunLenConcat(w, "." + more, IsNameChar);
    assert ("." + more)[1..] == more;
  }

  lemma {:induction false} ParseShowPath(path: seq<string>, tail: string)
    requires WellFormedPath(path) && PathEnds(tail)
    ensures ParsePath(ShowPath(path, tail)) == Some((path, tail))
    decreases |path|
  {
    if |path| == 1 {
      ParsePathLast(path[0], tail);
      assert [path[0]] == path;
    } else {
      assert WellFormedPath(path[1..]) by {
        assert forall k :: 0 <= k < |path| - 1 ==> path[1..][k] == path[k + 1];
      }
      ParseShowPath(path[1..], tail);
      ParsePathCons(path[0], ShowPath(path[1..], tail));
      assert [path[0]] + path[1..] == path;
    }
  }

  /** Putting a well-formed segment in front of a well-formed path. */
  lemma ShowPathCons(w: string, segs: seq<string>, tail: string)
    requires NonEmptyOf(w, IsNameChar) && WellFormedPath(segs)
    ensures WellFormedPath([w] + segs)
    ensures ShowPath([w] + segs, tail) == w + ("." + ShowPath(segs, tail))
  {
    var path := [w] + segs;
    assert path[1..] == segs;
    assert forall k :: 1 <= k < |path| ==> path[k] == segs[k - 1];
  }

  /** One step of the path parser: the first segment, then either a dot and more path or the end. */
  lemma ParsePathStep(s: string, path: seq<string>, tail: string) returns (n: nat)
    requires ParsePath(s) == Some((path, tail))
    ensures 0 < n <= |s| && NonEmptyOf(s[..n], IsNameChar) && |path| > 0 && path[0] == s[..n]
    ensures n < |s| && s[n] == '.' ==> ParsePath(s[n + 1..]) == Some((path[1..], tail))
    ensures !(n < |s| && s[n] == '.') ==> path == [s[..n]] && tail == s[n..] && PathEnds(tail)
  {
    n := RunLen(s, IsNameChar);
    var rest := s[n..];
    if |rest| > 0 && rest[0] == '.' {
      assert rest[1..] == s[n + 1..];
    }
  }

  /** The path parser returns well-formed segments and stops where a path may end. */
  lemma {:induction false} ParsedPathWellFormed(s: string, path: seq<string>, tail: string)
    requires ParsePath(s) == Some((path, tail))
    ensures WellFormedPath(path) && PathEnds(tail)
    decreases |s|
  {
    var n := ParsePathStep(s, path, tail);
    if n < |s| && s[n] == '.' {
      ParsedPathWellFormed(s[n + 1..], path[1..], tail);
      assert forall k :: 1 <= k < |path| ==> path[k] == path[1..][k - 1];
    }
  }

  /** The path parser reads back exactly the text it consumed. */
  lemma {:induction false} ShowParsePath(s: string, path: seq<string>, tail: string)
    requires ParsePath(s) == Some((path, tail))
    ensures WellFormedPath(path) && PathEnds(tail) && ShowPath(path, tail) == s
    decreases |s|
  {
    ParsedPathWellFormed(s, path, tail);
    var n := ParsePathStep(s, path, tail);
    if n < |s| && s[n] == '.' {
      ShowParsePath(s[n + 1..], path[1..], tail);
      ShowPathDot(s, n, path, tail);
    } else {
      assert s == s[..n] + s[n..];
    }
  }

  /** Joining the first segment to the printed rest of the path with a dot restores the text. */
  lemma ShowPathDot(s: string, n: nat, path: seq<string>, tail: string)
    requires n < |s| && s[n] == '.' && |path| > 1 && path[0] == s[..n]
    requires ShowPath(path[1..], tail) == s[n + 1..]
    ensures ShowPath(path, tail) == s
  {
    assert s == s[..n] + ("." + s[n + 1..]);
  }

  /** Printing well-formed impact parts and reading them back gives the same parts. */
  lemma ParseShowImpact(p: ImpactParts)
    requires WellFormedImpact(p)
    ensures ParseImpact(ShowImpact(p)) == Some(p)
  {
    var tail := [p.sign] + p.amount;
    ParseShowPath(p.path, tail);
    assert tail[1..] == p.amount;
  }

  /** Whatever the impact parser accepts is well-formed and prints back to the text it read. */
  lemma ShowParseImpact(s: string)
    requires ParseImpact(s).Some?
    ensures WellFormedImpact(ParseImpact(s).value)
    ensures ShowImpact(ParseImpact(s).value) == s
  {
    var (path, rest) := ParsePath(s).value;
    ShowParsePath(s, path, rest);
    assert rest == [rest[0]] + rest[1..];
  }

  /** `validateImpact`: the impact matches the pattern. */
  predicate ValidImpact(impact: string) {
    ParseImpact(impact).Some?
  }

  /** An impact passes exactly when some well-formed parts spell it. */
  lemma ValidImpactIff(impact: string)
    ensures ValidImpact(impact) <==> exists p :: WellFormedImpact(p) && ShowImpact(p) == impact
  {
    if ParseImpact(impact).Some? {
      ShowParseImpact(impact);
    }
    if exists p :: WellFormedImpact(p) && ShowImpact(p) == impact {
      var p :| WellFormedImpact(p) && ShowImpact(p) == impact;
      ParseShowImpact(p);
    }
  }

  /** The scene ID the loader's comment gives as an example is accepted, with the parts it is made of. */
  lemma SceneIdExample()
    ensures ParseSceneId("preface.0:dream-start") == Some(SceneIdParts("preface", "0", None, "dream-start"))
  {
    var p := SceneIdParts("preface", "0", None, "dream-start");
    assert IdTail(p) == ":dream-start";
    assert ShowId(p) == "preface.0:dream-start";
    ParseShowId(p);
  }

  /** The impact the loader's comment gives as an example is accepted, with the parts it is made of. */
  lemma ImpactExample()
    ensures ParseImpact("npc.teacher.trust-5") == Some(ImpactParts(["npc", "teacher", "trust"], '-', "5"))
  {
    var p := ImpactParts(["npc", "teacher", "trust"], '-', "5");
    assert [p.sign] + p.amount == "-5";
    assert ShowPath(["trust"], "-5") == "trust-5";
    assert ["teacher", "trust"][1..] == ["trust"];
    assert ShowPath(["teacher", "trust"], "-5") == "teacher.trust-5";
    assert ["npc", "teacher", "trust"][1..] == ["teacher", "trust"];
    assert ShowPath(["npc", "teacher", "trust"], "-5") == "npc.teacher.trust-5";
    ParseShowImpact(p);
  }
}

=== FILE: loader.dfy ===
/**
  The scene-file loader (internal/story/yaml_loader.go): scenes as the YAML
  decoder hands them over, their conversion into story scenes, and the check of
  the scene graph. Reading the file and decoding the YAML are left out: the
  loader starts from the decoded `YAMLSceneFile`. The graph check reports every
  defect it finds, in the order the Go code appends its messages; a defect is
  a `Violation` value here rather than a formatted line of text.
 */
module Loader {
  import opened Wrappers
  import opened Strings
  import opened Story
  import opened Grammar

  datatype YAMLChoice = YAMLChoice(text: string, next: string, impact: string)

  /** A decoded scene; `validation` is the optional `min_length` block. */
  datatype YAMLScene = YAMLScene(
    id: string,
    threadType: ThreadType,
    text: string,
    choices: seq<YAMLChoice>,
    validation: Option<int>,
    next: string)

  datatype YAMLSceneFile = YAMLSceneFile(scenes: seq<YAMLScene>)

  // ---------------------------------------------------------------------------
  // Conversion
  // ---------------------------------------------------------------------------

  function ConvertChoice(c: YAMLChoice): Choice {
    Choice(c.text, c.next, c.impact)
  }

  /** The scene a decoded scene becomes once its ID has passed: the text is trimmed, and only an open scene with a validation block gets a minimum length. */
  function SceneOf(y: YAMLScene): Scene {
    var choices := seq(|y.choices|, i requires 0 <= i < |y.choices| => ConvertChoice(y.choices[i]));
    var minLength := if y.threadType == ThreadOpen && y.validation.Some? then y.validation.value else 0;
    Scene(y.id, y.threadType, TrimSpace(y.text), choices, y.next, minLength)
  }

  /**
    `convertYAMLScene`: rejects a malformed ID (the error carries the ID), and
    otherwise copies the scene with its text trimmed. Only an open scene with a
    validation block gets a minimum length; every other scene gets zero.
   */
  function ConvertYAMLScene(y: YAMLScene): (r: Result<Scene, string>)
    ensures r.Err? <==> !ValidSceneId(y.id)
    ensures r.Err? ==> r.error == y.id
    ensures r.Ok? ==> r.value.id == y.id && r.value.threadType == y.threadType && r.value.next == y.next
    ensures r.Ok? ==> |r.value.choices| == |y.choices|
    ensures r.Ok? ==> r.value.text == TrimSpace(y.text)
    ensures r.Ok? ==> forall i :: 0 <= i < |y.choices| ==>
      && r.value.choices[i].text == y.choices[i].text
      && r.value.choices[i].next == y.choices[i].next
      && r.value.choices[i].impact == y.choices[i].impact
    ensures r.Ok? ==> r.value.minLength == if y.threadType == ThreadOpen && y.validation.Some? then y.validation.value else 0
  {
    if !ValidSceneId(y.id) then Err(y.id) else Ok(SceneOf(y))
  }

  /** The YAML a scene would be written as: open scenes carry their minimum length. */
  function ToYAML(s: Scene): YAMLScene {
    var choices := seq(|s.choices|, i requires 0 <= i < |s.choices| => YAMLChoice(s.choices[i].text, s.choices[i].next, s.choices[i].impact));
    YAMLScene(s.id, s.threadType, s.text, choices, if s.threadType == ThreadOpen then Some(s.minLength) else None, s.next)
  }

  /** A scene the converter could have produced. */
  predicate Convertible(s: Scene) {
    && ValidSceneId(s.id)
    && TrimSpace(s.text) == s.text
    && (s.threadType != ThreadOpen ==> s.minLength == 0)
  }

  /** Writing a convertible scene out and converting it back gives the scene. */
  lemma ConvertToYAML(s: Scene)
    requires Convertible(s)
    ensures ConvertYAMLScene(ToYAML(s)) == Ok(s)
  {
    var y := ToYAML(s);
    var c := ConvertYAMLScene(y).value;
    assert c.choices == s.choices;
  }

  /** Every converted scene is convertible, so converting is a fixed point on its own output. */
  lemma ConvertedConvertible(y: YAMLScene)
    requires ConvertYAMLScene(y).Ok?
    ensures Convertible(ConvertYAMLScene(y).value)
    ensures ConvertYAMLScene(ToYAML(ConvertYAMLScene(y).value)) == ConvertYAMLScene(y)
  {
    TrimSpaceIdempotent(y.text);
    ConvertToYAML(ConvertYAMLScene(y).value);
  }

  /** The position of the first scene whose ID is malformed, or the length of the list if there is none. */
  function FirstInvalid(ys: seq<YAMLScene>): (n: nat)
    ensures n <= |ys|
    ensures forall j :: 0 <= j < n ==> ValidSceneId(ys[j].id)
    ensures n < |ys| ==> !ValidSceneId(ys[n].id)
  {
    if |ys| == 0 || !ValidSceneId(ys[0].id) then 0
    else
      assert forall j :: 0 < j < |ys| ==> ys[j] == ys[1..][j - 1];
      1 + FirstInvalid(ys[1..])
  }

  /**
    The conversion loop of `LoadScenesFromYAML`: the scenes in file order, or the
    ID of the first scene whose ID is malformed, where the loop stops.
   */
  function ConvertAll(ys: seq<YAMLScene>): (r: Result<seq<Scene>, string>)
    ensures r.Ok? <==> forall i :: 0 <= i < |ys| ==> ValidSceneId(ys[i].id)
    ensures r.Ok? ==> |r.value| == |ys| && forall i :: 0 <= i < |ys| ==> ConvertYAMLScene(ys[i]) == Ok(r.value[i])
    ensures r.Err? ==> FirstInvalid(ys) < |ys| && r.error == ys[FirstInvalid(ys)].id
  {
    var n := FirstInvalid(ys);
    if n < |ys| then Err(ys[n].id)
    else Ok(seq(|ys|, i requires 0 <= i < |ys| => SceneOf(ys[i])))
  }

  // ---------------------------------------------------------------------------
  // The graph check
  // ---------------------------------------------------------------------------

  /** `validateNext`: the terminal `0`, an error state starting with `-`, or the ID of a loaded scene. */
  predicate NextOk(next: string, ids: set<string>) {
    next == "0" || (|next| > 0 && next[0] == '-') || next in ids
  }

  /** One defect `validateSceneGraph` reports. */
  datatype Violation =
    | MultiWithoutChoices(sceneId: string)
    | BadChoiceNext(sceneId: string, index: nat, next: string)
    | MissingNext(sceneId: string, threadType: ThreadType)
    | BadNext(sceneId: string, next: string)
    | UnknownThreadType(sceneId: string, threadType: ThreadType)
    | BadImpact(sceneId: string, index: nat, impact: string)

  /** The `next` check over the choices of a multi scene, from choice `i` on. */
  function ChoiceNextViolations(sceneId: string, choices: seq<Choice>, ids: set<string>, i: nat): (r: seq<Violation>)
    requires i <= |choices|
    ensures forall v :: v in r ==>
      (v.BadChoiceNext? && v.sceneId == sceneId && i <= v.index < |choices|
        && v.next == choices[v.index].next && !NextOk(v.next, ids))
    ensures forall j :: i <= j < |choices| && !NextOk(choices[j].next, ids) ==> BadChoiceNext(sceneId, j, choices[j].next) in r
    decreases |choices| - i
  {
    if i == |choices| then []
    else
      var here := if NextOk(choices[i].next, ids) then [] else [BadChoiceNext(sceneId, i, choices[i].next)];
      here + ChoiceNextViolations(sceneId, choices, ids, i + 1)
  }

  /** The impact check over every choice, from choice `i` on; an empty impact is not checked. */
  function ImpactViolations(sceneId: string, choices: seq<Choice>, i: nat): (r: seq<Violation>)
    requires i <= |choices|
    ensures forall v :: v in r ==>
      (v.BadImpact? && v.sceneId == sceneId && i <= v.index < |choices|
        && v.impact == choices[v.index].impact && v.impact != "" && !ValidImpact(v.impact))
    ensures forall j :: i <= j < |choices| && choices[j].impact != "" && !ValidImpact(choices[j].impact) ==>
      BadImpact(sceneId, j, choices[j].impact) in r
    decreases |choices| - i
  {
    if i == |choices| then []
    else
      var impact := choices[i].impact;
      var here := if impact != "" && !ValidImpact(impact) then [BadImpact(sceneId, i, impact)] else [];
      here + ImpactViolations(sceneId, choices, i + 1)
  }

  /** The thread-type switch of `validateSceneGraph` for one scene. */
  function SwitchViolations(s: Scene, ids: set<string>): seq<Violation> {
    if s.threadType == ThreadMulti then
      (if |s.choices| == 0 then [MultiWithoutChoices(s.id)] else []) + ChoiceNextViolations(s.id, s.choices, ids, 0)
    else if UsesSceneNext(s.threadType) then
      (if s.next == "" then [MissingNext(s.id, s.threadType)] else [])
      + (if NextOk(s.next, ids) then [] else [BadNext(s.id, s.next)])
    else [UnknownThreadType(s.id, s.threadType)]
  }

  /** Everything `validateSceneGraph` reports about one scene, in order. */
  function SceneViolations(s: Scene, ids: set<string>): seq<Violation> {
    SwitchViolations(s, ids) + ImpactViolations(s.id, s.choices, 0)
  }

  /**
    What a sound scene is, stated directly: a known thread type; a multi scene has
    choices whose `next` values all resolve; the other types have a non-empty
    scene-level `next` that resolves; every non-empty impact is well-formed.
   */
  predicate SceneSound(s: Scene, ids: set<string>) {
    && (s.threadType == ThreadMulti || UsesSceneNext(s.threadType))
    && (s.threadType == ThreadMulti ==>
          |s.choices| > 0 && forall j :: 0 <= j < |s.choices| ==> NextOk(s.choices[j].next, ids))
    && (UsesSceneNext(s.threadType) ==> s.next != "" && NextOk(s.next, ids))
    && forall j :: 0 <= j < |s.choices| ==> s.choices[j].impact == "" || ValidImpact(s.choices[j].impact)
  }

  lemma ChoiceNextViolationsNone(sceneId: string, choices: seq<Choice>, ids: set<string>)
    ensures |ChoiceNextViolations(sceneId, choices, ids, 0)| == 0 <==>
      forall j :: 0 <= j < |choices| ==> NextOk(choices[j].next, ids)
  {
    var r := ChoiceNextViolations(sceneId, choices, ids, 0);
    if |r| > 0 {
      assert r[0] in r;
    }
  }

  lemma ImpactViolationsNone(sceneId: string, choices: seq<Choice>)
    ensures |ImpactViolations(sceneId, choices, 0)| == 0 <==>
      forall j :: 0 <= j < |choices| ==> choices[j].impact == "" || ValidImpact(choices[j].impact)
  {
    var r := ImpactViolations(sceneId, choices, 0);
    if |r| > 0 {
      assert r[0] in r;
    }
  }

  /** A scene draws no report exactly when it is sound. */
  lemma SceneViolationsNone(s: Scene, ids: set<string>)
    ensures |SceneViolations(s, ids)| == 0 <==> SceneSound(s, ids)
  {
    ChoiceNextViolationsNone(s.id, s.choices, ids);
    ImpactViolationsNone(s.id, s.choices);
  }

  /** The whole loop of `validateSceneGraph`: each scene's reports, scene by scene. */
  function GraphViolations(scenes: seq<Scene>, ids: set<string>): (r: seq<Violation>)
    ensures |r| == 0 <==> forall k :: 0 <= k < |scenes| ==> SceneSound(scenes[k], ids)
  {
    if |scenes| == 0 then []
    else
      SceneViolationsNone(scenes[0], ids);
      var rest := GraphViolations(scenes[1..], ids);
      assert forall k :: 0 < k < |scenes| ==> scenes[k] == scenes[1..][k - 1];
      SceneViolations(scenes[0], ids) + rest
  }

  /** Reports for a list are the reports for its parts, in order. */
  lemma {:induction false} GraphViolationsAppend(a: seq<Scene>, b: seq<Scene>, ids: set<string>)
    ensures GraphViolations(a + b, ids) == GraphViolations(a, ids) + GraphViolations(b, ids)
  {
    if |a| == 0 {
      assert a + b == b;
    } else {
      assert (a + b)[0] == a[0] && (a + b)[1..] == a[1..] + b;
      GraphViolationsAppend(a[1..], b, ids);
      var head := SceneViolations(a[0], ids);
      calc {
        GraphViolations(a + b, ids);
        head + GraphViolations(a[1..] + b, ids);
        head + (GraphViolations(a[1..], ids) + GraphViolations(b, ids));
        (head + GraphViolations(a[1..], ids)) + GraphViolations(b, ids);
        GraphViolations(a, ids) + GraphViolations(b, ids);
      }
    }
  }

  /** `validateSceneGraph`: success exactly when every scene is sound; otherwise the non-empty list of reports. */
  function ValidateSceneGraph(scenes: seq<Scene>, ids: set<string>): (r: Result<(), seq<Violation>>)
    ensures r.Ok? <==> forall k :: 0 <= k < |scenes| ==> SceneSound(scenes[k], ids)
    ensures r.Err? ==> |r.error| > 0 && r.error == GraphViolations(scenes, ids)
  {
    var vs := GraphViolations(scenes, ids);
    if |vs| > 0 then Err(vs) else Ok(())
  }

  /**
    An empty scene-level `next` on an open, affirmative or finisher scene is reported
    twice: once as missing, and once more by `validateNext`, since no scene ID is empty.
   */
  lemma EmptyNextReportedTwice(s: Scene, scenes: seq<Scene>)
    requires forall k :: 0 <= k < |scenes| ==> ValidSceneId(scenes[k].id)
    requires UsesSceneNext(s.threadType) && s.next == ""
    ensures SwitchViolations(s, Ids(scenes)) == [MissingNext(s.id, s.threadType), BadNext(s.id, "")]
  {
    if "" in Ids(scenes) {
      var k :| 0 <= k < |scenes| && scenes[k].id == "";
      ValidSceneIdShape(scenes[k].id);
    }
  }

  /** An unknown thread type is reported once, and then neither kind of `next` is looked at. */
  lemma UnknownTypeSkipsNext(s: Scene, ids: set<string>, next: string, choices: seq<Choice>)
    requires s.threadType != ThreadMulti && !UsesSceneNext(s.threadType)
    ensures SwitchViolations(s, ids) == [UnknownThreadType(s.id, s.threadType)]
    ensures SwitchViolations(s.(next := next, choices := choices), ids) == SwitchViolations(s, ids)
  {
  }

  /** A multi scene's scene-level `next` is never looked at. */
  lemma MultiIgnoresSceneNext(s: Scene, ids: set<string>, next: string)
    requires s.threadType == ThreadMulti
    ensures SceneViolations(s.(next := next), ids) == SceneViolations(s, ids)
  {
  }

  // ---------------------------------------------------------------------------
  // Loading
  // ---------------------------------------------------------------------------

  datatype LoadError =
    | ConvertFailed(id: string)
    | GraphInvalid(violations: seq<Violation>)

  /** Every scene of the list is sound against the IDs of the list itself. */
  predicate GraphSound(scenes: seq<Scene>) {
    forall k :: 0 <= k < |scenes| ==> SceneSound(scenes[k], Ids(scenes))
  }

  /**
    `LoadScenesFromYAML` after decoding: convert every scene, then check the graph
    against the IDs of the converted scenes. Repeated IDs are not rejected.
   */
  function LoadScenesFromFile(file: YAMLSceneFile): (r: Result<seq<Scene>, LoadError>)
    ensures r.Ok? ==>
      (|r.value| == |file.scenes|
        && (forall i :: 0 <= i < |file.scenes| ==> ConvertYAMLScene(file.scenes[i]) == Ok(r.value[i]))
        && GraphSound(r.value))
    ensures r.Err? && r.error.ConvertFailed? ==>
      FirstInvalid(file.scenes) < |file.scenes| && r.error.id == file.scenes[FirstInvalid(file.scenes)].id
    ensures r.Err? && r.error.GraphInvalid? ==>
      && (forall i :: 0 <= i < |file.scenes| ==> ValidSceneId(file.scenes[i].id))
      && |r.error.violations| > 0
      && r.error.violations == GraphViolations(ConvertAll(file.scenes).value, Ids(ConvertAll(file.scenes).value))
  {
    match ConvertAll(file.scenes)
    case Err(id) => Err(ConvertFailed(id))
    case Ok(scenes) =>
      match ValidateSceneGraph(scenes, Ids(scenes))
      case Err(vs) => Err(GraphInvalid(vs))
      case Ok(_) => Ok(scenes)
  }

  /** A file loads exactly when every ID is well-formed and the converted scenes form a sound graph. */
  lemma LoadSucceedsIff(file: YAMLSceneFile)
    ensures LoadScenesFromFile(file).Ok? <==>
      ConvertAll(file.scenes).Ok? && GraphSound(ConvertAll(file.scenes).value)
  {
  }

  /** Every scene of a loaded file has a well-formed ID. */
  lemma LoadedIdsValid(file: YAMLSceneFile)
    requires LoadScenesFromFile(file).Ok?
    ensures forall k :: 0 <= k < |LoadScenesFromFile(file).value| ==> ValidSceneId(LoadScenesFromFile(file).value[k].id)
  {
  }

  /** Repeating a scene adds no ID. */
  lemma IdsRepeat(scenes: seq<Scene>, k: int)
    requires 0 <= k < |scenes|
    ensures Ids(scenes + [scenes[k]]) == Ids(scenes)
  {
    var more := scenes + [scenes[k]];
    forall id | id in Ids(more) ensures id in Ids(scenes) {
      var i :| 0 <= i < |more| && more[i].id == id;
      if i == |scenes| {
        assert scenes[k].id == id;
      } else {
        assert scenes[i].id == id;
      }
    }
    forall id | id in Ids(scenes) ensures id in Ids(more) {
      var i :| 0 <= i < |scenes| && scenes[i].id == id;
      assert more[i].id == id;
    }
  }

  /** Converting a file with a repeated scene repeats the converted scene. */
  lemma ConvertAllRepeat(ys: seq<YAMLScene>, k: int)
    requires ConvertAll(ys).Ok? && 0 <= k < |ys|
    ensures ConvertAll(ys + [ys[k]]) == Ok(ConvertAll(ys).value + [ConvertAll(ys).value[k]])
  {
    var scenes := ConvertAll(ys).value;
    var more := ys + [ys[k]];
    assert forall i :: 0 <= i < |ys| ==> more[i] == ys[i];
    assert more[|ys|] == ys[k];
    var scenes2 := ConvertAll(more).value;
    assert scenes2 == scenes + [scenes[k]];
  }

  /** A loaded file stays loadable when one of its scenes is written a second time. */
  lemma LoadAcceptsRepeatedScene(file: YAMLSceneFile, k: int)
    requires LoadScenesFromFile(file).Ok? && 0 <= k < |file.scenes|
    ensures LoadScenesFromFile(YAMLSceneFile(file.scenes + [file.scenes[k]])).Ok?
  {
    var scenes := LoadScenesFromFile(file).value;
    ConvertAllRepeat(file.scenes, k);
    IdsRepeat(scenes, k);
    var more := scenes + [scenes[k]];
    assert GraphSound(more) by {
      forall i | 0 <= i < |more| ensures SceneSound(more[i], Ids(more)) {
        if i == |scenes| {
          assert SceneSound(scenes[k], Ids(scenes));
        } else {
          assert SceneSound(scenes[i], Ids(scenes));
        }
      }
    }
  }

  /**
    On a loaded graph every `next` a scene can move to is the terminal `0`, an
    error state starting with `-`, or a scene `GetScene` finds once the scenes are
    loaded into the registry.
   */
  lemma LoadedNextResolves(scenes: seq<Scene>, k: int, next: string)
    requires GraphSound(scenes) && 0 <= k < |scenes|
    requires (scenes[k].threadType == ThreadMulti && exists j :: 0 <= j < |scenes[k].choices| && scenes[k].choices[j].next == next)
      || (UsesSceneNext(scenes[k].threadType) && next == scenes[k].next)
    ensures next == "0" || (|next| > 0 && next[0] == '-') || GetScene(LoadScenes(scenes), next).Some?
  {
    assert SceneSound(scenes[k], Ids(scenes));
  }
}

=== FILE: resolver.dfy ===
/**
  The choice handler of the preface server (cmd/preface/main.go, `handleChoice`):
  from the posted form and the loaded scenes it decides what the player sees next.
  The HTTP plumbing and the templates are left out; the decision is a value. The
  handler works in two stages: the current scene's thread type turns the form into
  a `Decision`, then the decision is resolved against the registry.
 */
module Resolver {
  import opened Wrappers
  import opened Strings
  import opened Story
  import opened Grammar
  import opened Loader

  /** The range of Go's `int` on a 64-bit platform. */
  const MinInt: int := -0x8000_0000_0000_0000
  const MaxInt: int := 0x7fff_ffff_ffff_ffff

  /** `strconv.Atoi`: an optional sign, then one or more decimal digits, of a value that fits in an `int`. */
  function Atoi(s: string): (r: Option<int>)
    ensures r.Some? ==> MinInt <= r.value <= MaxInt
    ensures r.Some? ==> |s| > 0 && (IsDigit(s[0]) || IsSign(s[0]))
    ensures r.Some? ==> forall i :: 1 <= i < |s| ==> IsDigit(s[i])
    ensures IsDecimal(s) ==> (r.Some? <==> DecimalValue(s) <= MaxInt) && (r.Some? ==> r.value == DecimalValue(s))
  {
    var signed := |s| > 0 && IsSign(s[0]);
    var digits := if signed then s[1..] else s;
    if !IsDecimal(digits) then None
    else
      var magnitude: int := DecimalValue(digits);
      var v := if signed && s[0] == '-' then -magnitude else magnitude;
      if MinInt <= v <= MaxInt then Some(v) else None
  }

  /** Reading back what `%d` printed gives the number, for every `int`. */
  lemma AtoiOfIntToString(i: int)
    requires MinInt <= i <= MaxInt
    ensures Atoi(IntToString(i)) == Some(i)
  {
    IntToStringRoundTrip(i);
    var s := IntToString(i);
    if i >= 0 {
      assert IsDigit(s[0]);
    }
  }

  /**
    `Atoi` also reads text `%d` never prints: a plus sign, leading zeros, and a minus
    sign before zeros all leave the value unchanged.
   */
  lemma AtoiLenient(d: string)
    requires IsDecimal(d)
    ensures Atoi("+" + d) == Atoi(d)
    ensures Atoi("0" + d) == Atoi(d)
    ensures Atoi("-0" + d) == Atoi("-" + d)
  {
    DecimalValueLeadingZero(d);
    assert Atoi("+" + d) == Atoi(d) by {
      assert ("+" + d)[0] == '+' && ("+" + d)[1..] == d;
      assert !IsSign(d[0]);
    }
    assert Atoi("0" + d) == Atoi(d) by {
      assert !IsSign(("0" + d)[0]) && !IsSign(d[0]);
    }
    AtoiMinusZero(d);
  }

  lemma AtoiMinusZero(d: string)
    requires IsDecimal(d) && IsDecimal("0" + d) && DecimalValue("0" + d) == DecimalValue(d)
    ensures Atoi("-0" + d) == Atoi("-" + d)
  {
    assert ("-0" + d)[0] == '-' && ("-0" + d)[1..] == "0" + d;
    assert ("-" + d)[0] == '-' && ("-" + d)[1..] == d;
  }

  /** Posting an index with leading zeros picks the same choice as posting it plainly. */
  lemma DecideLeadingZeros(scene: Scene, i: int, userText: string)
    requires scene.threadType == ThreadMulti && 0 <= i < |scene.choices| && i <= MaxInt
    ensures Decide(scene, "0" + IntToString(i), userText) ==
      Advance(scene.choices[i].next, "You chose: " + scene.choices[i].text)
  {
    IntToStringRoundTrip(i);
    AtoiLenient(IntToString(i));
    DecideChoice(scene, i, userText);
  }

  /** An integer as `%d` prints it: canonical digits, after a minus sign when the value is negative. */
  predicate IsCanonicalInt(s: string) {
    IsCanonicalDecimal(s) || (|s| > 1 && s[0] == '-' && s[1] != '0' && IsDecimal(s[1..]))
  }

  /** On text `%d` could have printed, printing what `Atoi` read gives the text back. */
  lemma AtoiCanonical(s: string)
    requires IsCanonicalInt(s) && Atoi(s).Some?
    ensures IntToString(Atoi(s).value) == s
  {
    if IsCanonicalDecimal(s) {
      AtoiCanonicalDigits(s);
    } else {
      AtoiCanonicalNegative(s);
    }
  }

  lemma AtoiCanonicalDigits(s: string)
    requires IsCanonicalDecimal(s)
    ensures Atoi(s) == Some(DecimalValue(s)) || Atoi(s).None?
    ensures IntToString(DecimalValue(s)) == s
  {
    assert !IsSign(s[0]);
    NatToStringOfDecimal(s);
  }

  lemma AtoiCanonicalNegative(s: string)
    requires |s| > 1 && s[0] == '-' && s[1] != '0' && IsDecimal(s[1..])
    ensures Atoi(s) == Some(-(DecimalValue(s[1..]) as int)) || Atoi(s).None?
    ensures IntToString(-(DecimalValue(s[1..]) as int)) == s
  {
    var digits := s[1..];
    assert digits[0] == s[1];
    DecimalValuePositive(digits);
    NatToStringOfDecimal(digits);
    assert s == "-" + digits;
  }

  /** The message that sends a too-short open response back, and the parts around its number. */
  const RetryPrefix: string := "Please provide at least "
  const RetrySuffix: string := " characters."

  function RetryMessage(minLength: int): string {
    RetryPrefix + IntToString(minLength) + RetrySuffix
  }

  /** The number in the retry message reads back as the minimum length. */
  lemma RetryMessageNamesLength(minLength: int)
    requires MinInt <= minLength <= MaxInt
    ensures |RetryPrefix| + |RetrySuffix| < |RetryMessage(minLength)|
    ensures Atoi(RetryMessage(minLength)[|RetryPrefix|..|RetryMessage(minLength)| - |RetrySuffix|]) == Some(minLength)
  {
    var m := RetryMessage(minLength);
    var n := IntToString(minLength);
    IntToStringRoundTrip(minLength);
    assert m[|RetryPrefix|..|m| - |RetrySuffix|] == n;
    AtoiOfIntToString(minLength);
  }

  /** What the current scene's thread type makes of the form. */
  datatype Decision =
    | Advance(next: string, feedback: string)
    | Retry(message: string)
    | Refuse(status: int, message: string)

  /** The `switch` on the current scene's thread type. */
  function Decide(scene: Scene, choiceIndex: string, userText: string): (r: Decision)
    ensures r.Refuse? && r.status == 500 <==> !(scene.threadType == ThreadMulti || UsesSceneNext(scene.threadType))
    ensures r.Refuse? && r.status == 400 <==>
      scene.threadType == ThreadMulti && !(Atoi(choiceIndex).Some? && 0 <= Atoi(choiceIndex).value < |scene.choices|)
    ensures r.Refuse? ==> r.status == 400 || r.status == 500
    ensures r.Retry? <==> scene.threadType == ThreadOpen && |userText| < scene.minLength
    ensures r.Advance? ==>
      (scene.threadType == ThreadMulti && exists j :: 0 <= j < |scene.choices| && r.next == scene.choices[j].next)
      || (UsesSceneNext(scene.threadType) && r.next == scene.next)
    ensures scene.threadType == ThreadMulti && r.Advance? ==>
      exists i :: 0 <= i < |scene.choices| && Atoi(choiceIndex) == Some(i)
        && r == Advance(scene.choices[i].next, "You chose: " + scene.choices[i].text)
    ensures scene.threadType == ThreadOpen && |userText| >= scene.minLength ==>
      r == Advance(scene.next, "Response recorded.")
    ensures scene.threadType == ThreadAffirmative || scene.threadType == ThreadFinisher ==>
      r == Advance(scene.next, "")
    ensures r.Retry? ==> r.message == RetryMessage(scene.minLength)
    ensures r.Refuse? ==> r.message == if r.status == 400 then "Invalid choice" else "Invalid thread type"
  {
    if scene.threadType == ThreadMulti then
      match Atoi(choiceIndex)
      case None => Refuse(400, "Invalid choice")
      case Some(i) =>
        if i < 0 || i >= |scene.choices| then Refuse(400, "Invalid choice")
        else
          var choice := scene.choices[i];
          Advance(choice.next, "You chose: " + choice.text)
    else if scene.threadType == ThreadOpen then
      if |userText| < scene.minLength then Retry(RetryMessage(scene.minLength))
      else Advance(scene.next, "Response recorded.")
    else if scene.threadType == ThreadAffirmative || scene.threadType == ThreadFinisher then
      Advance(scene.next, "")
    else Refuse(500, "Invalid thread type")
  }

  /** Posting the index `%d` printed for choice `i` of a multi scene follows that choice. */
  lemma DecideChoice(scene: Scene, i: int, userText: string)
    requires scene.threadType == ThreadMulti && 0 <= i < |scene.choices| && i <= MaxInt
    ensures Decide(scene, IntToString(i), userText) ==
      Advance(scene.choices[i].next, "You chose: " + scene.choices[i].text)
  {
    AtoiOfIntToString(i);
  }

  /** An affirmative scene and a finisher scene move on in the same way. */
  lemma AffirmativeIsFinisher(scene: Scene, choiceIndex: string, userText: string)
    ensures Decide(scene.(threadType := ThreadAffirmative), choiceIndex, userText)
         == Decide(scene.(threadType := ThreadFinisher), choiceIndex, userText)
    ensures Decide(scene.(threadType := ThreadFinisher), choiceIndex, userText) == Advance(scene.next, "")
  {
  }

  /** A multi scene looks only at the choice index, never at the typed text. */
  lemma MultiIgnoresText(scene: Scene, choiceIndex: string, text1: string, text2: string)
    requires scene.threadType == ThreadMulti
    ensures Decide(scene, choiceIndex, text1) == Decide(scene, choiceIndex, text2)
  {
  }

  /** The other thread types look only at the typed text, never at the choice index. */
  lemma OthersIgnoreIndex(scene: Scene, index1: string, index2: string, userText: string)
    requires scene.threadType != ThreadMulti
    ensures Decide(scene, index1, userText) == Decide(scene, index2, userText)
  {
  }

  /** A too-short open response is sent back with a message that names the minimum length. */
  lemma OpenRetryNamesLength(scene: Scene, choiceIndex: string, userText: string)
    requires scene.threadType == ThreadOpen && |userText| < scene.minLength <= MaxInt
    ensures Decide(scene, choiceIndex, userText).Retry?
    ensures var m := Decide(scene, choiceIndex, userText).message;
      |RetryPrefix| + |RetrySuffix| < |m| && m[..|RetryPrefix|] == RetryPrefix
      && Atoi(m[|RetryPrefix|..|m| - |RetrySuffix|]) == Some(scene.minLength)
  {
    RetryMessageNamesLength(scene.minLength);
  }

  /** What the handler writes back. */
  datatype Outcome =
    | Render(scene: Scene, feedback: string)
    | EndScreen
    | HttpError(status: int, message: string)

  /**
    `handleChoice`. `requestMethod` is the request method and `formOk` whether the form could
    be parsed; the three strings are the form's `scene_id`, `choice_index` and
    `user_text` values.
   */
  function Resolve(reg: Registry, requestMethod: string, formOk: bool, sceneId: string, choiceIndex: string, userText: string): (r: Outcome)
    ensures requestMethod != "POST" ==> r == HttpError(405, "Method not allowed")
    ensures r.HttpError? ==> r.status in {400, 404, 405, 500}
    ensures r.Render? ==> r.scene in reg.lookup.Values
    ensures r.EndScreen? <==>
      && requestMethod == "POST" && formOk && sceneId in reg.lookup
      && Decide(reg.lookup[sceneId], choiceIndex, userText).Advance?
      && Decide(reg.lookup[sceneId], choiceIndex, userText).next == "0"
    ensures requestMethod == "POST" && !formOk ==> r == HttpError(400, "Invalid form")
    ensures requestMethod == "POST" && formOk && sceneId !in reg.lookup ==> r == HttpError(404, "Current scene not found")
    ensures requestMethod == "POST" && formOk && sceneId in reg.lookup ==>
      var current := reg.lookup[sceneId];
      var d := Decide(current, choiceIndex, userText);
      && (d.Refuse? ==> r == HttpError(d.status, d.message))
      && (d.Retry? ==> r == Render(current, d.message))
      && (d.Advance? && d.next != "0" && d.next in reg.lookup ==> r == Render(reg.lookup[d.next], d.feedback))
      && (d.Advance? && d.next != "0" && d.next !in reg.lookup ==> r == HttpError(404, "Next scene not found"))
  {
    if requestMethod != "POST" then HttpError(405, "Method not allowed")
    else if !formOk then HttpError(400, "Invalid form")
    else
      match GetScene(reg, sceneId)
      case None => HttpError(404, "Current scene not found")
      case Some(current) =>
        match Decide(current, choiceIndex, userText)
        case Refuse(status, message) => HttpError(status, message)
        case Retry(message) => Render(current, message)
        case Advance(next, feedback) =>
          if next == "0" then EndScreen
          else
            match GetScene(reg, next)
            case None => HttpError(404, "Next scene not found")
            case Some(nextScene) => Render(nextScene, feedback)
  }

  /** The terminal ID ends the story before any lookup: no scene needs to carry it. */
  lemma TerminalNeedsNoScene(reg: Registry, sceneId: string, choiceIndex: string, userText: string)
    requires sceneId in reg.lookup && "0" !in reg.lookup
    requires Decide(reg.lookup[sceneId], choiceIndex, userText).Advance?
    requires Decide(reg.lookup[sceneId], choiceIndex, userText).next == "0"
    ensures Resolve(reg, "POST", true, sceneId, choiceIndex, userText) == EndScreen
  {
  }

  /**
    On scenes loaded from a file that passed the loader, a posted form never meets an
    unknown thread type, and "Next scene not found" happens exactly when the decision
    moves to a `next` reserved for error states (one that starts with a minus sign).
   */
  lemma ResolveOnLoadedFile(file: YAMLSceneFile, sceneId: string, choiceIndex: string, userText: string)
    requires LoadScenesFromFile(file).Ok?
    ensures var reg := LoadScenes(LoadScenesFromFile(file).value);
      var r := Resolve(reg, "POST", true, sceneId, choiceIndex, userText);
      && (r.HttpError? ==> r.status != 500)
      && (r == HttpError(404, "Next scene not found") <==>
            sceneId in reg.lookup
            && Decide(reg.lookup[sceneId], choiceIndex, userText).Advance?
            && Decide(reg.lookup[sceneId], choiceIndex, userText).next != "0"
            && |Decide(reg.lookup[sceneId], choiceIndex, userText).next| > 0
            && Decide(reg.lookup[sceneId], choiceIndex, userText).next[0] == '-')
  {
    LoadedIdsValid(file);
    ResolveOnSoundScenes(LoadScenesFromFile(file).value, sceneId, choiceIndex, userText);
  }

  /** The same on any sound scene list whose IDs are all well-formed. */
  lemma ResolveOnSoundScenes(scenes: seq<Scene>, sceneId: string, choiceIndex: string, userText: string)
    requires GraphSound(scenes)
    requires forall k :: 0 <= k < |scenes| ==> ValidSceneId(scenes[k].id)
    ensures var reg := LoadScenes(scenes);
      var r := Resolve(reg, "POST", true, sceneId, choiceIndex, userText);
      && (r.HttpError? ==> r.status != 500)
      && (r == HttpError(404, "Next scene not found") <==>
            sceneId in reg.lookup
            && Decide(reg.lookup[sceneId], choiceIndex, userText).Advance?
            && Decide(reg.lookup[sceneId], choiceIndex, userText).next != "0"
            && |Decide(reg.lookup[sceneId], choiceIndex, userText).next| > 0
            && Decide(reg.lookup[sceneId], choiceIndex, userText).next[0] == '-')
  {
    var reg := LoadScenes(scenes);
    if sceneId in reg.lookup {
      GetSceneSound(reg, sceneId);
      var k :| 0 <= k < |scenes| && scenes[k] == reg.lookup[sceneId];
      var d := DecideOnSoundScene(scenes, k, choiceIndex, userText);
      if d.Advance? && |d.next| > 0 && d.next[0] == '-' {
        NoSceneIdReserved(scenes, d.next);
      }
    }
  }

  /** A scene of a sound list never fails on its thread type, and every move it makes resolves. */
  lemma DecideOnSoundScene(scenes: seq<Scene>, k: int, choiceIndex: string, userText: string) returns (d: Decision)
    requires GraphSound(scenes) && 0 <= k < |scenes|
    ensures d == Decide(scenes[k], choiceIndex, userText)
    ensures d.Refuse? ==> d.status == 400
    ensures d.Advance? ==> d.next == "0" || (|d.next| > 0 && d.next[0] == '-') || GetScene(LoadScenes(scenes), d.next).Some?
  {
    assert SceneSound(scenes[k], Ids(scenes));
    d := Decide(scenes[k], choiceIndex, userText);
    if d.Advance? {
      LoadedNextResolves(scenes, k, d.next);
    }
  }

  /** IDs that start with a minus sign are never scene IDs of a loaded file. */
  lemma NoSceneIdReserved(scenes: seq<Scene>, next: string)
    requires forall k :: 0 <= k < |scenes| ==> ValidSceneId(scenes[k].id)
    requires |next| > 0 && next[0] == '-'
    ensures GetScene(LoadScenes(scenes), next).None?
  {
    if next in Ids(scenes) {
      var k :| 0 <= k < |scenes| && scenes[k].id == next;
      ValidSceneIdShape(next);
    }
  }
}

=== FILE: scene.dfy ===
/**
  The scene model of the story package (internal/story/scene.go): scenes, their
  choices, and the package-level registry that `LoadScenes` fills and `GetScene`
  reads. The registry is a value here: each operation takes the registry and
  returns the new one.
 */
module Story {
  import opened Wrappers

  /** How a scene asks the player to move on. A plain string: any value can come out of a scene file. */
  type ThreadType = string

  const ThreadMulti: ThreadType := "multi"
  const ThreadOpen: ThreadType := "open"
  const ThreadAffirmative: ThreadType := "affirmative"
  const ThreadFinisher: ThreadType := "finisher"

  /** The thread types that move on through the scene-level `next`. */
  predicate UsesSceneNext(t: ThreadType) {
    t == ThreadOpen || t == ThreadAffirmative || t == ThreadFinisher
  }

  datatype Choice = Choice(text: string, next: string, impact: string)

  datatype Scene = Scene(
    id: string,
    threadType: ThreadType,
    text: string,
    choices: seq<Choice>,
    next: string,
    minLength: int)

  /** The scene cache and the lookup table built from it. */
  datatype Registry = Registry(cache: seq<Scene>, lookup: map<string, Scene>)

  /** The IDs of a scene list. */
  function Ids(scenes: seq<Scene>): set<string> {
    set i | 0 <= i < |scenes| :: scenes[i].id
  }

  /** The IDs of a non-empty list are those of all but its last scene, plus the last one's. */
  lemma IdsSnoc(scenes: seq<Scene>)
    requires |scenes| > 0
    ensures Ids(scenes) == Ids(scenes[..|scenes| - 1]) + {scenes[|scenes| - 1].id}
  {
    var init := scenes[..|scenes| - 1];
    assert forall i :: 0 <= i < |init| ==> init[i] == scenes[i];
    forall id | id in Ids(scenes)
      ensures id in Ids(init) + {scenes[|scenes| - 1].id}
    {
      var i :| 0 <= i < |scenes| && scenes[i].id == id;
      if i < |init| {
        assert init[i].id == id;
      }
    }
  }

  /** The lookup loop of `LoadScenes`: each scene is entered under its ID, later ones overwriting earlier ones. */
  function IndexScenes(scenes: seq<Scene>): (m: map<string, Scene>)
    ensures m.Keys == Ids(scenes)
    ensures forall id :: id in m ==> m[id].id == id
  {
    if |scenes| == 0 then map[]
    else
      IdsSnoc(scenes);
      var last := scenes[|scenes| - 1];
      IndexScenes(scenes[..|scenes| - 1])[last.id := last]
  }

  /** The table maps an ID to the last scene in the list that carries it. */
  lemma {:induction false} IndexScenesLast(scenes: seq<Scene>, i: int)
    requires 0 <= i < |scenes|
    requires forall j :: i < j < |scenes| ==> scenes[j].id != scenes[i].id
    ensures scenes[i].id in IndexScenes(scenes)
    ensures IndexScenes(scenes)[scenes[i].id] == scenes[i]
    decreases |scenes|
  {
    if i < |scenes| - 1 {
      var init := scenes[..|scenes| - 1];
      assert forall j :: 0 <= j < |init| ==> init[j] == scenes[j];
      IndexScenesLast(init, i);
    }
  }

  /** `LoadScenes`: the cache becomes `scenes` and the table is rebuilt from it alone. */
  function LoadScenes(scenes: seq<Scene>): (r: Registry)
    ensures r.cache == scenes
    ensures r.lookup.Keys == Ids(scenes)
  {
    Registry(scenes, IndexScenes(scenes))
  }

  /** `GetScene` on a loaded registry: the scene entered under `id`, or nothing. */
  function GetScene(reg: Registry, id: string): (r: Option<Scene>)
    ensures r.Some? <==> id in reg.lookup
    ensures r.Some? ==> r.value == reg.lookup[id]
  {
    if id in reg.lookup then Some(reg.lookup[id]) else None
  }

  /**
    After `LoadScenes(scenes)`, `GetScene(id)` finds nothing exactly when no scene has
    that ID, and otherwise finds the last scene with that ID.
   */
  lemma GetSceneAfterLoad(scenes: seq<Scene>, id: string)
    ensures GetScene(LoadScenes(scenes), id).None? <==> forall i :: 0 <= i < |scenes| ==> scenes[i].id != id
    ensures GetScene(LoadScenes(scenes), id).Some? ==>
      exists i :: 0 <= i < |scenes|
        && GetScene(LoadScenes(scenes), id) == Some(scenes[i])
        && scenes[i].id == id
        && forall j :: i < j < |scenes| ==> scenes[j].id != id
  {
    if id in Ids(scenes) {
      var i := LastWithId(scenes, id);
      IndexScenesLast(scenes, i);
    }
  }

  /** The position of the last scene carrying `id`. */
  lemma {:induction false} LastWithId(scenes: seq<Scene>, id: string) returns (i: int)
    requires id in Ids(scenes)
    ensures 0 <= i < |scenes| && scenes[i].id == id
    ensures forall j :: i < j < |scenes| ==> scenes[j].id != id
  {
    var n := |scenes| - 1;
    if scenes[n].id == id {
      i := n;
    } else {
      var init := scenes[..n];
      var k :| 0 <= k < |scenes| && scenes[k].id == id;
      assert init[k].id == id;
      i := LastWithId(init, id);
      assert scenes[i] == init[i];
    }
  }

  /** A registry holds what one `LoadScenes` put there: the table is the index of the cache. */
  ghost predicate Loaded(reg: Registry) {
    reg.lookup == IndexScenes(reg.cache)
  }

  /** On a loaded registry a found scene carries the requested ID and is one of the cached scenes. */
  lemma GetSceneSound(reg: Registry, id: string)
    requires Loaded(reg)
    ensures GetScene(reg, id).Some? ==> GetScene(reg, id).value.id == id && GetScene(reg, id).value in reg.cache
  {
    if id in reg.lookup {
      var i := LastWithId(reg.cache, id);
      IndexScenesLast(reg.cache, i);
    }
  }

  /** Loading builds the table from the new scenes alone. */
  lemma LoadScenesLoaded(scenes: seq<Scene>)
    ensures Loaded(LoadScenes(scenes))
  {
  }

  /**
    `GetPrefaceScenes`: a non-empty cache is returned as it is and the registry is left
    alone; otherwise the scenes read from the scene file, `fromFile`, are loaded.
   */
  function GetPrefaceScenes(reg: Registry, fromFile: seq<Scene>): (r: (Registry, seq<Scene>))
    ensures |reg.cache| > 0 ==> r == (reg, reg.cache)
    ensures |reg.cache| == 0 ==> r.0 == LoadScenes(fromFile) && r.1 == fromFile
  {
    if |reg.cache| > 0 then (reg, reg.cache)
    else
      var loaded := LoadScenes(fromFile);
      (loaded, loaded.cache)
  }

  /** Once scenes are cached, asking again changes nothing and returns the same scenes. */
  lemma GetPrefaceScenesStable(reg: Registry, fromFile: seq<Scene>, later: seq<Scene>)
    requires |GetPrefaceScenes(reg, fromFile).1| > 0
    ensures var (reg1, scenes1) := GetPrefaceScenes(reg, fromFile);
      GetPrefaceScenes(reg1, later) == (reg1, scenes1)
  {
  }
}

=== FILE: sorting.dfy ===
/**
  Sorting by an integer key, standing in for Go's `sort.Slice`. `sort.Slice` is not
  stable in general, so its callers are stated for every order it may leave among
  equal keys (see `Annotation.RenderOrdered`). This insertion sort keeps equal keys
  in their input order, which is what `sort.Slice` does on short inputs, where it
  runs an insertion sort.
 */
module Sorting {

  /** `s` is in non-decreasing order of `key`. */
  predicate SortedBy<T>(s: seq<T>, key: T -> int) {
    forall i, j :: 0 <= i < j < |s| ==> key(s[i]) <= key(s[j])
  }

  /** Inserts `x` into the sorted `s` before the first element whose key is at least `key(x)`. */
  function Insert<T(==)>(x: T, s: seq<T>, key: T -> int): (r: seq<T>)
    requires SortedBy(s, key)
    ensures SortedBy(r, key)
    ensures multiset(r) == multiset(s) + multiset{x}
  {
    if |s| == 0 then [x]
    else if key(x) <= key(s[0]) then
      ConsSorted(x, s, key);
      [x] + s
    else
      var tail := Insert(x, s[1..], key);
      assert s == [s[0]] + s[1..];
      BoundedByMultiset(tail, s[1..], x, key, key(s[0]));
      ConsSorted(s[0], tail, key);
      [s[0]] + tail
  }

  /** An element no greater than the head of a sorted sequence may go in front of it. */
  lemma ConsSorted<T>(h: T, t: seq<T>, key: T -> int)
    requires SortedBy(t, key)
    requires forall j :: 0 <= j < |t| ==> key(h) <= key(t[j])
    ensures SortedBy([h] + t, key)
  {
    var r := [h] + t;
    forall i, j | 0 <= i < j < |r|
      ensures key(r[i]) <= key(r[j])
    {
      assert r[j] == t[j - 1];
      if i > 0 {
        assert r[i] == t[i - 1];
      }
    }
  }

  /** A lower bound on the keys of `u` and of `x` bounds the keys of any permutation of `u` plus `x`. */
  lemma BoundedByMultiset<T>(t: seq<T>, u: seq<T>, x: T, key: T -> int, b: int)
    requires multiset(t) == multiset(u) + multiset{x}
    requires b <= key(x)
    requires forall i :: 0 <= i < |u| ==> b <= key(u[i])
    ensures forall j :: 0 <= j < |t| ==> b <= key(t[j])
  {
    forall j | 0 <= j < |t|
      ensures b <= key(t[j])
    {
      assert t[j] in multiset(t);
      if t[j] != x {
        assert t[j] in multiset(u);
        var i :| 0 <= i < |u| && u[i] == t[j];
      }
    }
  }

  /** A permutation of `s` in non-decreasing order of `key`. */
  function SortBy<T(==)>(s: seq<T>, key: T -> int): (r: seq<T>)
    ensures SortedBy(r, key)
    ensures multiset(r) == multiset(s)
  {
    if |s| == 0 then []
    else
      assert s == [s[0]] + s[1..];
      Insert(s[0], SortBy(s[1..], key), key)
  }
}

=== FILE: strings.dfy ===
/**
  The part of Go's `strings`, `unicode` and `fmt` packages that the game and story
  packages rely on, over ASCII text. A Go string is a byte sequence; over ASCII a
  byte is a character, so `len(s)` is `|s|` and byte offsets are sequence indices.
 */
module Strings {

  /** The ASCII characters Go's `unicode.IsSpace` accepts. */
  predicate IsSpace(c: char) {
    c == ' ' || c == '\t' || c == '\n' || c == '\r' || c == '\U{B}' || c == '\U{C}'
  }

  predicate IsWordChar(c: char) {
    !IsSpace(c)
  }

  predicate IsUpper(c: char) {
    'A' <= c <= 'Z'
  }

  predicate IsDigit(c: char) {
    '0' <= c <= '9'
  }

  /** `unicode.ToLower` on ASCII: only `A`-`Z` change. */
  function LowerChar(c: char): char {
    if IsUpper(c) then (c as int + 32) as char else c
  }

  /** `strings.ToLower` on ASCII text: one character in, one character out. */
  function Lower(s: string): (r: string)
    ensures |r| == |s|
    ensures forall i :: 0 <= i < |s| ==> r[i] == LowerChar(s[i])
  {
    seq(|s|, i requires 0 <= i < |s| => LowerChar(s[i]))
  }

  /** Lowering commutes with taking a slice, so offsets found in the lowered text address the original text. */
  lemma LowerSlice(s: string, a: int, b: int)
    requires 0 <= a <= b <= |s|
    ensures Lower(s[a..b]) == Lower(s)[a..b]
  {
  }

  /** `pat` occurs in `s` starting at offset `i`. */
  predicate OccursAt(s: string, pat: string, i: int) {
    0 <= i && i + |pat| <= |s| && s[i..i + |pat|] == pat
  }

  /** `strings.Index`: the offset of the first occurrence of `pat` in `s`, or -1 when there is none. */
  function Index(s: string, pat: string): (r: int)
    ensures r == -1 || OccursAt(s, pat, r)
    ensures r == -1 ==> forall i :: !OccursAt(s, pat, i)
    ensures r != -1 ==> forall i :: 0 <= i < r ==> !OccursAt(s, pat, i)
  {
    IndexFrom(s, pat, 0)
  }

  /** The first occurrence of `pat` in `s` at an offset of at least `from`, or -1. */
  function IndexFrom(s: string, pat: string, from: nat): (r: int)
    requires from <= |s|
    ensures r == -1 || (from <= r && OccursAt(s, pat, r))
    ensures r == -1 ==> forall i :: from <= i ==> !OccursAt(s, pat, i)
    ensures r != -1 ==> forall i :: from <= i < r ==> !OccursAt(s, pat, i)
    decreases |s| - from
  {
    if from + |pat| > |s| then -1
    else if s[from..from + |pat|] == pat then from
    else IndexFrom(s, pat, from + 1)
  }

  /** An occurrence in the suffix from `a` is an occurrence in the whole text, shifted by `a`. */
  lemma OccursShift(s: string, pat: string, a: int)
    requires 0 <= a <= |s|
    ensures forall p :: a <= p ==> (OccursAt(s, pat, p) <==> OccursAt(s[a..], pat, p - a))
  {
    forall p | a <= p
      ensures OccursAt(s, pat, p) <==> OccursAt(s[a..], pat, p - a)
    {
      if p + |pat| <= |s| {
        assert s[a..][p - a..p - a + |pat|] == s[p..p + |pat|];
      }
    }
  }

  /**
    `strings.Index(s[a:], pat)` read in the offsets of `s`: it finds nothing exactly
    when nothing occurs from `a` on, and otherwise `a` plus it is `IndexFrom(s, pat, a)`.
   */
  lemma IndexOfSuffix(s: string, pat: string, a: nat)
    requires a <= |s|
    ensures Index(s[a..], pat) == -1 <==> IndexFrom(s, pat, a) == -1
    ensures Index(s[a..], pat) != -1 ==> IndexFrom(s, pat, a) == a + Index(s[a..], pat)
  {
    OccursShift(s, pat, a);
    var idx := Index(s[a..], pat);
    if idx != -1 {
      assert OccursAt(s, pat, a + idx);
      assert forall p :: a <= p < a + idx ==> !OccursAt(s, pat, p);
    } else {
      assert forall p :: a <= p ==> !OccursAt(s, pat, p);
    }
  }

  /** `strings.Contains`. */
  predicate Contains(s: string, sub: string) {
    Index(s, sub) >= 0
  }

  /** The length of the longest prefix of `s` whose characters all satisfy `p`. */
  function RunLen(s: string, p: char -> bool): (n: nat)
    ensures n <= |s|
    ensures forall i :: 0 <= i < n ==> p(s[i])
    ensures n == |s| || !p(s[n])
  {
    if |s| == 0 || !p(s[0]) then 0 else 1 + RunLen(s[1..], p)
  }

  /** `strings.TrimLeftFunc`: drops the longest prefix whose characters satisfy `p`. */
  function TrimLeftBy(s: string, p: char -> bool): (r: string)
    ensures |r| <= |s| && r == s[|s| - |r|..]
    ensures forall i :: 0 <= i < |s| - |r| ==> p(s[i])
    ensures r == [] || !p(r[0])
  {
    s[RunLen(s, p)..]
  }

  /** `strings.TrimRightFunc`: drops the longest suffix whose characters satisfy `p`. */
  function TrimRightBy(s: string, p: char -> bool): (r: string)
    ensures |r| <= |s| && r == s[..|r|]
    ensures forall i :: |r| <= i < |s| ==> p(s[i])
    ensures r == [] || !p(r[|r| - 1])
  {
    if |s| > 0 && p(s[|s| - 1]) then TrimRightBy(s[..|s| - 1], p) else s
  }

  /** `strings.Trim` with the cut set given as a predicate: neither end of the result is in the set. */
  function TrimBy(s: string, p: char -> bool): (r: string)
    ensures r == [] || (!p(r[0]) && !p(r[|r| - 1]))
  {
    TrimRightBy(TrimLeftBy(s, p), p)
  }

  /** What `TrimBy` keeps is one contiguous piece of `s`, starting at `a`. */
  lemma TrimBySlice(s: string, p: char -> bool) returns (a: int)
    ensures 0 <= a <= a + |TrimBy(s, p)| <= |s|
    ensures TrimBy(s, p) == s[a..a + |TrimBy(s, p)|]
  {
    var l := TrimLeftBy(s, p);
    a := |s| - |l|;
    var r := TrimRightBy(l, p);
    assert r == l[..|r|];
    assert l[..|r|] == s[a..a + |r|];
  }

  /** A cut set that lowering cannot move a character into or out of. */
  predicate LowerStable(p: char -> bool) {
    forall c :: p(LowerChar(c)) == p(c)
  }

  /** Lowering commutes with trimming by a cut set that is stable under lowering. */
  lemma LowerTrimBy(s: string, p: char -> bool)
    requires LowerStable(p)
    ensures TrimBy(Lower(s), p) == Lower(TrimBy(s, p))
  {
    var n := RunLen(s, p);
    RunLenOfRun(Lower(s), p, n);
    LowerSlice(s, n, |s|);
    assert s[n..|s|] == s[n..] && Lower(s)[n..|s|] == Lower(s)[n..];
    LowerTrimRightBy(TrimLeftBy(s, p), p);
  }

  lemma {:induction false} LowerTrimRightBy(s: string, p: char -> bool)
    requires LowerStable(p)
    ensures TrimRightBy(Lower(s), p) == Lower(TrimRightBy(s, p))
  {
    if |s| > 0 && p(s[|s| - 1]) {
      assert p(Lower(s)[|s| - 1]);
      LowerSlice(s, 0, |s| - 1);
      assert s[0..|s| - 1] == s[..|s| - 1] && Lower(s)[0..|s| - 1] == Lower(s)[..|s| - 1];
      LowerTrimRightBy(s[..|s| - 1], p);
    } else if |s| > 0 {
      assert !p(Lower(s)[|s| - 1]);
    }
  }

  /** `strings.TrimSpace`. */
  function TrimSpace(s: string): string {
    TrimBy(s, IsSpace)
  }

  /** Text whose ends are already outside the cut set is left as it is. */
  lemma TrimByFixed(s: string, p: char -> bool)
    requires s == [] || (!p(s[0]) && !p(s[|s| - 1]))
    ensures TrimBy(s, p) == s
  {
    assert RunLen(s, p) == 0;
  }

  /** Trimming twice is trimming once. */
  lemma TrimSpaceIdempotent(s: string)
    ensures TrimSpace(TrimSpace(s)) == TrimSpace(s)
  {
    TrimByFixed(TrimSpace(s), IsSpace);
  }

  /** A field as `strings.Fields` produces it: non-empty and free of whitespace. */
  predicate IsWord(w: string) {
    |w| > 0 && forall i :: 0 <= i < |w| ==> !IsSpace(w[i])
  }

  /** `strings.Fields`: the maximal runs of non-space characters of `s`, in order. */
  function Fields(s: string): (fs: seq<string>)
    ensures forall k :: 0 <= k < |fs| ==> IsWord(fs[k])
    decreases |s|
  {
    if |s| == 0 then []
    else if IsSpace(s[0]) then Fields(s[1..])
    else
      var n := RunLen(s, IsWordChar);
      [s[..n]] + Fields(s[n..])
  }

  /** `strings.Join`. */
  function Join(parts: seq<string>, sep: string): string {
    if |parts| == 0 then ""
    else if |parts| == 1 then parts[0]
    else parts[0] + sep + Join(parts[1..], sep)
  }

  /** The only whitespace is a plain space, and no two spaces are adjacent. */
  predicate SingleSpaced(s: string) {
    && (forall i :: 0 <= i < |s| && IsSpace(s[i]) ==> s[i] == ' ')
    && (forall i, j :: 0 <= i < |s| && 0 <= j < |s| && j == i + 1 && s[i] == ' ' ==> s[j] != ' ')
  }

  /** A contiguous piece of a single-spaced string is single-spaced. */
  lemma SingleSpacedSlice(s: string, a: int, b: int)
    requires 0 <= a <= b <= |s|
    requires SingleSpaced(s)
    ensures SingleSpaced(s[a..b])
  {
    var t := s[a..b];
    assert forall i :: 0 <= i < |t| ==> t[i] == s[a + i];
  }

  /** Lowering leaves whitespace where it was. */
  lemma LowerSingleSpaced(s: string)
    requires SingleSpaced(s)
    ensures SingleSpaced(Lower(s))
  {
  }

  /** Neither end of `s` is whitespace. */
  predicate SpaceFreeEnds(s: string) {
    |s| == 0 || (!IsSpace(s[0]) && !IsSpace(s[|s| - 1]))
  }

  /** Joining whitespace-free words with single spaces leaves no run of whitespace and no whitespace at either end. */
  lemma {:induction false} JoinWordsSingleSpaced(ws: seq<string>)
    requires forall k :: 0 <= k < |ws| ==> IsWord(ws[k])
    ensures SingleSpaced(Join(ws, " "))
    ensures SpaceFreeEnds(Join(ws, " "))
    ensures |ws| > 0 ==> |Join(ws, " ")| > 0
  {
    if |ws| > 1 {
      JoinWordsSingleSpaced(ws[1..]);
      var rest := Join(ws[1..], " ");
      var j := ws[0] + " " + rest;
      assert Join(ws, " ") == j;
      assert j[|ws[0]|] == ' ';
      assert forall i :: 0 <= i < |ws[0]| ==> j[i] == ws[0][i];
      assert forall i :: |ws[0]| < i < |j| ==> j[i] == rest[i - |ws[0]| - 1];
    }
  }

  /** Splitting on whitespace undoes joining words with single spaces. */
  lemma {:induction false} FieldsOfJoin(ws: seq<string>)
    requires forall k :: 0 <= k < |ws| ==> IsWord(ws[k])
    ensures Fields(Join(ws, " ")) == ws
  {
    if |ws| == 1 {
      FieldsOfWord(ws[0], "");
      assert ws[0] + "" == ws[0];
    } else if |ws| > 1 {
      var rest := Join(ws[1..], " ");
      FieldsOfWord(ws[0], " " + rest);
      assert ws[0] + " " + rest == ws[0] + (" " + rest);
      assert Fields(" " + rest) == Fields(rest) by {
        assert (" " + rest)[1..] == rest;
      }
      FieldsOfJoin(ws[1..]);
    }
  }

  /** Leading whitespace does not change the fields. */
  lemma {:induction false} FieldsDropLeading(s: string, a: nat)
    requires a <= |s|
    requires forall i :: 0 <= i < a ==> IsSpace(s[i])
    ensures Fields(s[a..]) == Fields(s)
  {
    if a == 0 {
      assert s[a..] == s;
    } else {
      FieldsDropLeading(s[1..], a - 1);
      assert s[1..][a - 1..] == s[a..];
    }
  }

  /** Trailing whitespace does not change the fields. */
  lemma {:induction false} FieldsDropTrailing(s: string, n: nat)
    requires n <= |s|
    requires forall i :: n <= i < |s| ==> IsSpace(s[i])
    ensures Fields(s[..n]) == Fields(s)
    decreases |s|
  {
    if |s| == 0 {
    } else if IsSpace(s[0]) {
      FieldsDropTrailing(s[1..], if n == 0 then 0 else n - 1);
      if n > 0 {
        assert s[..n][1..] == s[1..][..n - 1];
      }
    } else {
      var m := RunLen(s, IsWordChar);
      if n < |s| {
        assert IsSpace(s[n]);
      }
      assert 0 < m <= n;
      RunLenOfRun(s[..n], IsWordChar, m);
      assert s[..n][..m] == s[..m];
      FieldsDropTrailing(s[m..], n - m);
      assert s[..n][m..] == s[m..][..n - m];
    }
  }

  /** `strings.TrimSpace` never changes what `strings.Fields` finds. */
  lemma FieldsOfTrimSpace(s: string)
    ensures Fields(TrimSpace(s)) == Fields(s)
  {
    var l := TrimLeftBy(s, IsSpace);
    FieldsDropLeading(s, |s| - |l|);
    var r := TrimRightBy(l, IsSpace);
    FieldsDropTrailing(l, |r|);
  }

  /** Joined words begin with the first word's first character and end with the last word's last. */
  lemma {:induction false} JoinEnds(ws: seq<string>)
    requires |ws| > 0 && forall k :: 0 <= k < |ws| ==> IsWord(ws[k])
    requires IsWord(ws[0]) && IsWord(ws[|ws| - 1])
    ensures var j := Join(ws, " "); var last := ws[|ws| - 1];
      |j| > 0 && j[0] == ws[0][0] && j[|j| - 1] == last[|last| - 1]
  {
    if |ws| > 1 {
      JoinEnds(ws[1..]);
      var rest := Join(ws[1..], " ");
      assert Join(ws, " ") == ws[0] + " " + rest;
    }
  }

  /** A word followed by whitespace (or nothing) is the first field. */
  lemma FieldsOfWord(w: string, t: string)
    requires IsWord(w)
    requires |t| == 0 || IsSpace(t[0])
    ensures Fields(w + t) == [w] + Fields(t)
  {
    var s := w + t;
    RunLenOfRun(s, IsWordChar, |w|);
    assert s[..|w|] == w;
    assert s[|w|..] == t;
  }

  /** A run of `p`-characters that ends at `k` has length `k`. */
  lemma {:induction false} RunLenOfRun(s: string, p: char -> bool, k: nat)
    requires k <= |s|
    requires forall i :: 0 <= i < k ==> p(s[i])
    requires k == |s| || !p(s[k])
    ensures RunLen(s, p) == k
  {
    if k > 0 {
      RunLenOfRun(s[1..], p, k - 1);
    }
  }

  /** Every field of `s` is a contiguous piece of `s`; `i` is where it starts. */
  lemma {:induction false} FieldsOccur(s: string, k: int) returns (i: int)
    requires 0 <= k < |Fields(s)|
    ensures OccursAt(s, Fields(s)[k], i)
    decreases |s|
  {
    var w := Fields(s)[k];
    var n := if IsSpace(s[0]) then 1 else RunLen(s, IsWordChar);
    if !IsSpace(s[0]) && k == 0 {
      i := 0;
    } else {
      var k' := if IsSpace(s[0]) then k else k - 1;
      assert w == Fields(s[n..])[k'];
      var i' := FieldsOccur(s[n..], k');
      OccursInSuffix(s, w, n, i');
      i := n + i';
    }
  }

  /** An occurrence in a suffix is an occurrence in the whole, shifted by where the suffix starts. */
  lemma OccursInSuffix(s: string, pat: string, a: int, p: int)
    requires 0 <= a <= |s|
    requires OccursAt(s[a..], pat, p)
    ensures OccursAt(s, pat, a + p)
  {
    assert s[a..][p..p + |pat|] == s[a + p..a + p + |pat|];
  }

  predicate IsDecimal(s: string) {
    |s| > 0 && forall i :: 0 <= i < |s| ==> IsDigit(s[i])
  }

  function DigitChar(d: nat): char
    requires d < 10
  {
    ('0' as int + d) as char
  }

  /** `fmt`'s `%d` for a non-negative integer: decimal digits, no leading zeros. */
  function NatToString(n: nat): (r: string)
    ensures IsDecimal(r)
    ensures |r| > 1 ==> r[0] != '0'
  {
    if n < 10 then [DigitChar(n)] else NatToString(n / 10) + [DigitChar(n % 10)]
  }

  /** `fmt`'s `%d` for any integer: a minus sign before the digits of a negative number. */
  function IntToString(i: int): string {
    if i < 0 then "-" + NatToString(-i) else NatToString(i)
  }

  /** The value of a string of decimal digits. */
  function DecimalValue(s: string): nat
    requires IsDecimal(s)
  {
    var d := s[|s| - 1] as int - '0' as int;
    if |s| == 1 then d else DecimalValue(s[..|s| - 1]) * 10 + d
  }

  /** A leading zero does not change the value of a digit string. */
  lemma {:induction false} DecimalValueLeadingZero(d: string)
    requires IsDecimal(d)
    ensures IsDecimal("0" + d) && DecimalValue("0" + d) == DecimalValue(d)
    decreases |d|
  {
    var z := "0" + d;
    assert forall i :: 1 <= i < |z| ==> z[i] == d[i - 1];
    if |d| > 1 {
      var init := d[..|d| - 1];
      DecimalValueLeadingZero(init);
      assert z[..|z| - 1] == "0" + init;
    } else {
      assert z[..|z| - 1] == "0";
    }
  }

  /** Reading back what `%d` printed gives the number. */
  lemma {:induction false} NatToStringRoundTrip(n: nat)
    ensures DecimalValue(NatToString(n)) == n
  {
    if n >= 10 {
      NatToStringRoundTrip(n / 10);
      var r := NatToString(n);
      assert r[..|r| - 1] == NatToString(n / 10);
    }
  }

  /** Reading back what `%d` printed gives the number, sign included. */
  lemma IntToStringRoundTrip(i: int)
    ensures i >= 0 ==> IntToString(i) == NatToString(i) && DecimalValue(IntToString(i)) == i
    ensures i < 0 ==> IntToString(i)[0] == '-' && DecimalValue(IntToString(i)[1..]) == -i
  {
    if i < 0 {
      NegativeToString(i);
    } else {
      NatToStringRoundTrip(i);
    }
  }

  /** A negative number prints as a minus sign and the digits of its magnitude. */
  lemma NegativeToString(i: int)
    requires i < 0
    ensures IntToString(i)[0] == '-' && DecimalValue(IntToString(i)[1..]) == -i
  {
    var digits := NatToString(-i);
    assert IntToString(i) == "-" + digits;
    assert IntToString(i)[1..] == digits;
    NatToStringRoundTrip(-i);
  }

  /** Digits as `%d` prints them: a single digit, or no leading zero. */
  predicate IsCanonicalDecimal(s: string) {
    IsDecimal(s) && (|s| == 1 || s[0] != '0')
  }

  /** Digits that do not start with zero are worth at least one. */
  lemma {:induction false} DecimalValuePositive(s: string)
    requires IsDecimal(s) && s[0] != '0'
    ensures DecimalValue(s) > 0
    decreases |s|
  {
    if |s| > 1 {
      var init := s[..|s| - 1];
      assert init[0] == s[0];
      DecimalValuePositive(init);
    }
  }

  /** Printing the value of canonical digits gives the digits back. */
  lemma {:induction false} NatToStringOfDecimal(s: string)
    requires IsCanonicalDecimal(s)
    ensures NatToString(DecimalValue(s)) == s
    decreases |s|
  {
    var d := s[|s| - 1] as int - '0' as int;
    assert DigitChar(d) == s[|s| - 1];
    if |s| > 1 {
      var init := s[..|s| - 1];
      assert init[0] == s[0];
      DecimalValuePositive(init);
      NatToStringOfDecimal(init);
      var v := DecimalValue(s);
      assert v / 10 == DecimalValue(init) && v % 10 == d;
      assert s == init + [s[|s| - 1]];
    }
  }
}

=== FILE: validation.dfy ===
/**
  The answer checkers of the game package (internal/game/validation.go): keyword
  scoring of free-text answers, the longest-first sort of keyword lists, and the
  multiple-choice scorer. Scores are ratios of counts and are modelled as exact
  `real` quotients.
 */
module Validation {
  import opened Wrappers
  import opened Strings

  // ---------------------------------------------------------------------------
  // Normalising answers
  // ---------------------------------------------------------------------------

  /** The punctuation `normalize` strips from both ends and `containsWord` from the end of a field. */
  predicate IsTrimPunct(c: char) {
    c == '.' || c == ',' || c == '!' || c == '?' || c == ';' || c == ':'
  }

  lemma TrimPunctLowerStable()
    ensures LowerStable(IsTrimPunct)
  {
  }

  /**
    `normalize`: whitespace runs collapse to one space and vanish at the ends, the
    text is lowered unless matching is case-sensitive, and punctuation is stripped
    from both ends.
   */
  function Normalize(s: string, caseSensitive: bool): (r: string)
    ensures SingleSpaced(r)
    ensures !caseSensitive ==> forall i :: 0 <= i < |r| ==> !IsUpper(r[i])
  {
    var cased := Cased(s, caseSensitive);
    TrimPunctKeeps(cased);
    TrimBy(cased, IsTrimPunct)
  }

  /** A normalised answer neither begins nor ends with the stripped punctuation. */
  lemma NormalizeTrimmed(s: string, caseSensitive: bool)
    ensures var r := Normalize(s, caseSensitive);
      r == [] || (!IsTrimPunct(r[0]) && !IsTrimPunct(r[|r| - 1]))
  {
  }

  /** The first two steps of `normalize`: whitespace collapsed, then lowered unless case-sensitive. */
  function Cased(s: string, caseSensitive: bool): (r: string)
    ensures SingleSpaced(r)
    ensures !caseSensitive ==> forall i :: 0 <= i < |r| ==> !IsUpper(r[i])
  {
    var joined := Join(Fields(TrimSpace(s)), " ");
    JoinWordsSingleSpaced(Fields(TrimSpace(s)));
    LowerSingleSpaced(joined);
    if caseSensitive then joined else Lower(joined)
  }

  /** Stripping punctuation keeps single spacing and the absence of upper case. */
  lemma TrimPunctKeeps(s: string)
    ensures SingleSpaced(s) ==> SingleSpaced(TrimBy(s, IsTrimPunct))
    ensures (forall i :: 0 <= i < |s| ==> !IsUpper(s[i])) ==>
      forall i :: 0 <= i < |TrimBy(s, IsTrimPunct)| ==> !IsUpper(TrimBy(s, IsTrimPunct)[i])
  {
    var a := TrimBySlice(s, IsTrimPunct);
    var t := TrimBy(s, IsTrimPunct);
    if SingleSpaced(s) {
      SingleSpacedSlice(s, a, a + |t|);
    }
    assert forall i :: 0 <= i < |t| ==> t[i] == s[a + i];
  }

  /** Case-insensitive normalisation is the case-sensitive one, lowered. */
  lemma NormalizeIgnoringCase(s: string)
    ensures Normalize(s, false) == Lower(Normalize(s, true))
  {
    TrimPunctLowerStable();
    LowerTrimBy(Cased(s, true), IsTrimPunct);
  }

  /**
    What `normalize` makes of an answer: its whitespace-separated words joined by
    single spaces, lowered unless matching is case-sensitive, provided the answer
    neither begins nor ends with the stripped punctuation.
   */
  lemma NormalizeJoinsFields(s: string, caseSensitive: bool)
    requires var ws := Fields(s);
      |ws| == 0 || (!IsTrimPunct(ws[0][0]) && !IsTrimPunct(ws[|ws| - 1][|ws[|ws| - 1]| - 1]))
    ensures Normalize(s, caseSensitive) ==
      if caseSensitive then Join(Fields(s), " ") else Lower(Join(Fields(s), " "))
  {
    var joined := Join(Fields(s), " ");
    assert joined == [] || (!IsTrimPunct(joined[0]) && !IsTrimPunct(joined[|joined| - 1])) by {
      var ws := Fields(s);
      if |ws| > 0 {
        JoinEnds(ws);
      }
    }
    TrimByFixed(joined, IsTrimPunct);
    NormalizeByFields(s);
    if !caseSensitive {
      NormalizeIgnoringCase(s);
    }
  }

  /** Case-sensitive normalisation strips punctuation from the answer's words joined by single spaces. */
  lemma NormalizeByFields(s: string)
    ensures Normalize(s, true) == TrimBy(Join(Fields(s), " "), IsTrimPunct)
  {
    FieldsOfTrimSpace(s);
    assert Cased(s, true) == Join(Fields(s), " ");
  }

  /** Normalising text that is already normalised changes nothing when no field ends in punctuation. */
  lemma NormalizeWord(w: string, caseSensitive: bool)
    requires IsWord(w)
    requires !IsTrimPunct(w[0]) && !IsTrimPunct(w[|w| - 1])
    requires caseSensitive || forall i :: 0 <= i < |w| ==> !IsUpper(w[i])
    ensures Normalize(w, caseSensitive) == w
  {
    assert RunLen(w, IsSpace) == 0;
    assert TrimLeftBy(w, IsSpace) == w;
    assert TrimSpace(w) == w;
    FieldsOfWord(w, "");
    assert w + "" == w;
    var joined := Join(Fields(w), " ");
    assert joined == w;
    if !caseSensitive {
      assert Lower(w) == w;
    }
    assert RunLen(w, IsTrimPunct) == 0;
    assert TrimLeftBy(w, IsTrimPunct) == w;
  }

  // ---------------------------------------------------------------------------
  // Whole-word matching
  // ---------------------------------------------------------------------------

  /** The loop of `containsWord`: some field, with trailing punctuation cut off, is `word`. */
  function AnyFieldIs(fields: seq<string>, word: string): bool {
    if |fields| == 0 then false
    else TrimRightBy(fields[0], IsTrimPunct) == word || AnyFieldIs(fields[1..], word)
  }

  lemma {:induction false} AnyFieldIsIff(fields: seq<string>, word: string)
    ensures AnyFieldIs(fields, word)
      <==> exists k :: 0 <= k < |fields| && TrimRightBy(fields[k], IsTrimPunct) == word
  {
    if |fields| > 0 {
      AnyFieldIsIff(fields[1..], word);
      assert forall k :: 1 <= k < |fields| ==> fields[k] == fields[1..][k - 1];
    }
  }

  /** `containsWord`: `word` is one whitespace-separated field of `text`, trailing punctuation ignored. */
  function ContainsWord(text: string, word: string): (b: bool)
    ensures b <==> exists k :: 0 <= k < |Fields(text)| && TrimRightBy(Fields(text)[k], IsTrimPunct) == word
  {
    ContainsWordIff(text, word);
    AnyFieldIs(Fields(text), word)
  }

  /** Both directions of `ContainsWord`'s contract, each with its witness field. */
  lemma ContainsWordIff(text: string, word: string)
    ensures AnyFieldIs(Fields(text), word)
      <==> exists k :: 0 <= k < |Fields(text)| && TrimRightBy(Fields(text)[k], IsTrimPunct) == word
  {
    var fields := Fields(text);
    AnyFieldIsIff(fields, word);
    if AnyFieldIs(fields, word) {
      var k :| 0 <= k < |fields| && TrimRightBy(fields[k], IsTrimPunct) == word;
      assert TrimRightBy(Fields(text)[k], IsTrimPunct) == word;
    }
    if exists k :: 0 <= k < |Fields(text)| && TrimRightBy(Fields(text)[k], IsTrimPunct) == word {
      var k :| 0 <= k < |Fields(text)| && TrimRightBy(Fields(text)[k], IsTrimPunct) == word;
      assert TrimRightBy(fields[k], IsTrimPunct) == word;
    }
  }

  /** A word that contains whitespace is never found as a whole word. */
  lemma ContainsWordSpaceFree(text: string, word: string)
    requires exists i :: 0 <= i < |word| && IsSpace(word[i])
    ensures !ContainsWord(text, word)
  {
    var i :| 0 <= i < |word| && IsSpace(word[i]);
    forall k | 0 <= k < |Fields(text)|
      ensures TrimRightBy(Fields(text)[k], IsTrimPunct) != word
    {
      var f := Fields(text)[k];
      var t := TrimRightBy(f, IsTrimPunct);
      assert IsWord(f) && t == f[..|t|];
      if |t| == |word| {
        assert !IsSpace(t[i]);
      }
    }
  }

  /** A whole-word match is also a substring match. */
  lemma ContainsWordThenContains(text: string, word: string)
    ensures ContainsWord(text, word) ==> Contains(text, word)
  {
    if ContainsWord(text, word) {
      var k :| 0 <= k < |Fields(text)| && TrimRightBy(Fields(text)[k], IsTrimPunct) == word;
      var f := Fields(text)[k];
      var i := FieldsOccur(text, k);
      assert word == f[..|word|];
      assert text[i..i + |word|] == f[..|word|];
      assert OccursAt(text, word, i);
    }
  }

  // ---------------------------------------------------------------------------
  // Keyword scoring
  // ---------------------------------------------------------------------------

  datatype ResponseValidator = ResponseValidator(
    acceptedKeywords: seq<string>,
    requiredCount: int,
    caseSensitive: bool,
    allowPartial: bool)

  /**
    The outcome shown to the player. `annotatedInput` is the highlighted answer; the
    highlighter itself is not modelled, so it is `None` whenever it would run.
   */
  datatype ValidationResult = ValidationResult(
    correct: bool,
    matchedWords: seq<string>,
    missingWords: seq<string>,
    score: real,
    annotatedInput: Option<string>)

  /** `NewValidator`: case-insensitive whole-word matching. */
  function NewValidator(keywords: seq<string>, required: int): (v: ResponseValidator)
    ensures v.acceptedKeywords == keywords && v.requiredCount == required
    ensures !v.caseSensitive && !v.allowPartial
  {
    ResponseValidator(keywords, required, false, false)
  }

  /** `keyword` counts as present in the normalised answer. */
  predicate Matches(v: ResponseValidator, normalized: string, keyword: string) {
    var nk := Normalize(keyword, v.caseSensitive);
    if v.allowPartial then Contains(normalized, nk) else ContainsWord(normalized, nk)
  }

  /** `Matches` against one answer, as a test on keywords. */
  function MatchesIn(v: ResponseValidator, normalized: string): string -> bool {
    k => Matches(v, normalized, k)
  }

  /** The complement of `MatchesIn`. */
  function MissesIn(v: ResponseValidator, normalized: string): string -> bool {
    k => !Matches(v, normalized, k)
  }

  /** The elements of `s` that pass `p`, in their original order. */
  function Filter<T>(s: seq<T>, p: T -> bool): seq<T> {
    if |s| == 0 then []
    else (if p(s[0]) then [s[0]] else []) + Filter(s[1..], p)
  }

  lemma {:induction false} FilterAppend<T>(a: seq<T>, b: seq<T>, p: T -> bool)
    ensures Filter(a + b, p) == Filter(a, p) + Filter(b, p)
  {
    if |a| > 0 {
      assert (a + b)[1..] == a[1..] + b;
      FilterAppend(a[1..], b, p);
    } else {
      assert a + b == b;
    }
  }

  /** The filter of one more element of `s`. */
  lemma FilterStep<T>(s: seq<T>, i: int, p: T -> bool)
    requires 0 <= i < |s|
    ensures Filter(s[..i + 1], p) == Filter(s[..i], p) + (if p(s[i]) then [s[i]] else [])
  {
    assert s[..i + 1] == s[..i] + [s[i]];
    FilterAppend(s[..i], [s[i]], p);
    assert [s[i]][1..] == [];
  }

  lemma TakeAll<T>(s: seq<T>)
    ensures s[..|s|] == s
  {
  }

  /**
    Filtering by a test and by its complement splits a sequence: every element lands
    in exactly one part, and each part holds only elements that pass its test.
   */
  lemma {:induction false} FilterPartition<T>(s: seq<T>, p: T -> bool, q: T -> bool)
    requires forall x :: q(x) == !p(x)
    ensures |Filter(s, p)| + |Filter(s, q)| == |s|
    ensures multiset(Filter(s, p)) + multiset(Filter(s, q)) == multiset(s)
    ensures forall x :: x in Filter(s, p) ==> x in s && p(x)
    ensures forall x :: x in Filter(s, q) ==> x in s && q(x)
  {
    if |s| > 0 {
      FilterPartition(s[1..], p, q);
      assert s == [s[0]] + s[1..];
    }
  }

  /** A weaker test keeps at least as many elements. */
  lemma {:induction false} FilterMonotone<T>(s: seq<T>, p: T -> bool, q: T -> bool)
    requires forall x :: p(x) ==> q(x)
    ensures |Filter(s, p)| <= |Filter(s, q)|
  {
    if |s| > 0 {
      FilterMonotone(s[1..], p, q);
    }
  }

  /** The matched and missing keywords of an answer split the keyword list. */
  lemma MatchedMissingPartition(v: ResponseValidator, normalized: string, kws: seq<string>)
    ensures |Filter(kws, MatchesIn(v, normalized))| + |Filter(kws, MissesIn(v, normalized))| == |kws|
    ensures multiset(Filter(kws, MatchesIn(v, normalized))) + multiset(Filter(kws, MissesIn(v, normalized))) == multiset(kws)
    ensures forall w :: w in Filter(kws, MatchesIn(v, normalized)) ==> w in kws && Matches(v, normalized, w)
    ensures forall w :: w in Filter(kws, MissesIn(v, normalized)) ==> w in kws && !Matches(v, normalized, w)
  {
    FilterPartition(kws, MatchesIn(v, normalized), MissesIn(v, normalized));
  }

  /** Accepting substrings as matches never loses a keyword that whole-word matching finds. */
  lemma PartialFindsMore(v: ResponseValidator, normalized: string, kws: seq<string>)
    ensures var whole := v.(allowPartial := false);
      var partial := v.(allowPartial := true);
      |Filter(kws, MatchesIn(whole, normalized))| <= |Filter(kws, MatchesIn(partial, normalized))|
  {
    var whole := v.(allowPartial := false);
    var partial := v.(allowPartial := true);
    forall k | MatchesIn(whole, normalized)(k)
      ensures MatchesIn(partial, normalized)(k)
    {
      ContainsWordThenContains(normalized, Normalize(k, v.caseSensitive));
    }
    FilterMonotone(kws, MatchesIn(whole, normalized), MatchesIn(partial, normalized));
  }

  /** In whole-word mode a keyword that is still several words after normalising is always missing. */
  lemma MultiWordKeywordMissing(v: ResponseValidator, normalized: string, keyword: string)
    requires !v.allowPartial
    requires exists i :: 0 <= i < |Normalize(keyword, v.caseSensitive)| && Normalize(keyword, v.caseSensitive)[i] == ' '
    ensures !Matches(v, normalized, keyword)
  {
    ContainsWordSpaceFree(normalized, Normalize(keyword, v.caseSensitive));
  }

  /** A count out of a larger positive total is a fraction between 0 and 1. */
  lemma RatioBounds(part: nat, total: nat)
    requires 0 < total && part <= total
    ensures 0.0 <= part as real / total as real <= 1.0
    ensures part as real / total as real == 1.0 <==> part == total
  {
  }

  /**
    `Validate`: with no keywords the answer is correct with full score; otherwise the
    keywords are split into matched and missing in their original order, the score
    is the matched fraction and the answer is correct when enough matched.
   */
  method Validate(v: ResponseValidator, input: string) returns (r: ValidationResult)
    ensures |v.acceptedKeywords| == 0 ==> r == ValidationResult(true, [], [], 1.0, Some(""))
    ensures |v.acceptedKeywords| > 0 ==>
      var normalized := Normalize(input, v.caseSensitive);
      && r.matchedWords == Filter(v.acceptedKeywords, MatchesIn(v, normalized))
      && r.missingWords == Filter(v.acceptedKeywords, MissesIn(v, normalized))
      && r.score == |r.matchedWords| as real / |v.acceptedKeywords| as real
      && r.correct == (|r.matchedWords| >= v.requiredCount)
      && r.annotatedInput == (if |r.matchedWords| == 0 then Some(input) else None)
    ensures 0.0 <= r.score <= 1.0
  {
    var kws := v.acceptedKeywords;
    if |kws| == 0 {
      return ValidationResult(true, [], [], 1.0, Some(""));
    }
    var normalized := Normalize(input, v.caseSensitive);
    var matched: seq<string> := [];
    var missing: seq<string> := [];
    var i := 0;
    while i < |kws|
      invariant 0 <= i <= |kws|
      invariant matched == Filter(kws[..i], MatchesIn(v, normalized))
      invariant missing == Filter(kws[..i], MissesIn(v, normalized))
    {
      var keyword := kws[i];
      var found := Matches(v, normalized, keyword);
      assert found == MatchesIn(v, normalized)(keyword);
      FilterStep(kws, i, MatchesIn(v, normalized));
      FilterStep(kws, i, MissesIn(v, normalized));
      if found {
        matched := matched + [keyword];
      } else {
        missing := missing + [keyword];
      }
      i := i + 1;
    }
    TakeAll(kws);
    MatchedMissingPartition(v, normalized, kws);
    var score := |matched| as real / |kws| as real;
    RatioBounds(|matched|, |kws|);
    var annotated := if |matched| == 0 then Some(input) else None;
    r := ValidationResult(|matched| >= v.requiredCount, matched, missing, score, annotated);
  }

  // ---------------------------------------------------------------------------
  // Longest-first sort
  // ---------------------------------------------------------------------------

  /** Exchanges the elements at `i` and `j`. */
  function Swap(s: seq<string>, i: int, j: int): (r: seq<string>)
    requires 0 <= i < |s| && 0 <= j < |s|
    ensures |r| == |s| && r[i] == s[j] && r[j] == s[i]
    ensures forall k :: 0 <= k < |s| && k != i && k != j ==> r[k] == s[k]
    ensures multiset(r) == multiset(s)
  {
    s[i := s[j]][j := s[i]]
  }

  /**
    `sortByLength`: the exchange sort of the source, over a sequence. After pass
    `i` the element at `i` is a longest one of what was left.
   */
  method SortByLength(strs: seq<string>) returns (r: seq<string>)
    ensures multiset(r) == multiset(strs)
    ensures forall a, b :: 0 <= a < b < |r| ==> |r[a]| >= |r[b]|
  {
    r := strs;
    var i := 0;
    while i < |r|
      invariant 0 <= i <= |r| == |strs|
      invariant multiset(r) == multiset(strs)
      invariant forall a, b :: 0 <= a < b < i ==> |r[a]| >= |r[b]|
      invariant forall a, b :: 0 <= a < i <= b < |r| ==> |r[a]| >= |r[b]|
    {
      var j := i + 1;
      while j < |r|
        invariant i + 1 <= j <= |r| == |strs|
        invariant multiset(r) == multiset(strs)
        invariant forall a, b :: 0 <= a < b < i ==> |r[a]| >= |r[b]|
        invariant forall a, b :: 0 <= a < i <= b < |r| ==> |r[a]| >= |r[b]|
        invariant forall b :: i < b < j ==> |r[i]| >= |r[b]|
      {
        if |r[i]| < |r[j]| {
          r := Swap(r, i, j);
        }
        j := j + 1;
      }
      i := i + 1;
    }
  }

  // ---------------------------------------------------------------------------
  // Multiple choice
  // ---------------------------------------------------------------------------

  datatype MultipleChoiceValidator = MultipleChoiceValidator(correctIndices: seq<int>, allowMultiple: bool)

  /** The zero result of a rejected selection. */
  const Rejected: ValidationResult := ValidationResult(false, [], [], 0.0, Some(""))

  /** The selection loop: the number of selections when every one is a correct index, `None` at the first that is not. */
  function CountMatches(selected: seq<int>, correct: seq<int>): (r: Option<nat>)
    ensures r.Some? <==> forall i :: 0 <= i < |selected| ==> selected[i] in correct
    ensures r.Some? ==> r.value == |selected|
  {
    if |selected| == 0 then Some(0)
    else if selected[0] !in correct then None
    else
      assert forall i :: 1 <= i < |selected| ==> selected[i] == selected[1..][i - 1];
      match CountMatches(selected[1..], correct)
      case None => None
      case Some(n) => Some(n + 1)
  }

  /**
    `ValidateChoice`: too many selections in single mode, or any selection that is not
    a correct index, is rejected with score 0. In multiple mode the answer is correct
    when the number of selections equals the number of correct indices, and otherwise
    scores that ratio; every selection counts, repeated ones included.
   */
  function ValidateChoice(v: MultipleChoiceValidator, selected: seq<int>): (r: ValidationResult)
    ensures r.correct <==>
      && (v.allowMultiple || |selected| <= 1)
      && (forall i :: 0 <= i < |selected| ==> selected[i] in v.correctIndices)
      && (v.allowMultiple ==> |selected| == |v.correctIndices|)
    ensures r.correct ==> r.score == 1.0
    ensures !r.correct && r.score != 0.0 ==>
      && v.allowMultiple && |v.correctIndices| > 0
      && r.score == |selected| as real / |v.correctIndices| as real
    ensures !r.correct ==>
      r.score == if v.allowMultiple && |v.correctIndices| > 0 && forall i :: 0 <= i < |selected| ==> selected[i] in v.correctIndices
        then |selected| as real / |v.correctIndices| as real
        else 0.0
  {
    if !v.allowMultiple && |selected| > 1 then Rejected
    else match CountMatches(selected, v.correctIndices)
      case None => Rejected
      case Some(matchCount) =>
        if v.allowMultiple && matchCount != |v.correctIndices| then
          assert |selected| > 0 ==> selected[0] in v.correctIndices;
          ValidationResult(false, [], [], matchCount as real / |v.correctIndices| as real, Some(""))
        else ValidationResult(true, [], [], 1.0, Some(""))
  }

  /**
    Repeated selections count once each: in multiple mode, choosing the first correct
    answer twice out of two passes although the second was never chosen, and choosing
    the only correct answer twice scores 2.
   */
  lemma ValidateChoiceRepeats()
    ensures var v := MultipleChoiceValidator([0, 1], true);
      ValidateChoice(v, [0, 0]).correct && 1 !in [0, 0]
    ensures ValidateChoice(MultipleChoiceValidator([0], true), [0, 0]).score == 2.0
  {
    assert CountMatches([0, 0], [0, 1]) == Some(2);
    assert CountMatches([0, 0], [0]) == Some(2);
  }

  /** The test "was chosen in `selected`" on choice indices. */
  function ChosenIn(selected: seq<int>): int -> bool {
    x => x in selected
  }

  /** A filter keeps every element exactly when every element passes. */
  lemma {:induction false} FilterAll<T>(s: seq<T>, p: T -> bool)
    ensures |Filter(s, p)| <= |s|
    ensures |Filter(s, p)| == |s| <==> forall i :: 0 <= i < |s| ==> p(s[i])
  {
    if |s| > 0 {
      FilterAll(s[1..], p);
      assert forall i :: 1 <= i < |s| ==> s[i] == s[1..][i - 1];
    }
  }

  /** No index occurs twice. */
  predicate NoRepeats(s: seq<int>) {
    forall i, j :: 0 <= i < j < |s| ==> s[i] != s[j]
  }

  /** The indices a list mentions. */
  function IndexSet(s: seq<int>): set<int> {
    set x | x in s
  }

  /** Without repeats, the head is not in the tail and the tail has no repeats either. */
  lemma HeadNotInTail(s: seq<int>)
    requires NoRepeats(s) && |s| > 0
    ensures s[0] !in s[1..] && NoRepeats(s[1..])
  {
    assert forall i :: 0 <= i < |s| - 1 ==> s[1..][i] == s[i + 1];
  }

  /** A list without repeats mentions as many indices as it is long. */
  lemma {:induction false} IndexSetSize(s: seq<int>)
    requires NoRepeats(s)
    ensures |IndexSet(s)| == |s|
  {
    if |s| > 0 {
      HeadNotInTail(s);
      IndexSetSize(s[1..]);
      assert IndexSet(s) == {s[0]} + IndexSet(s[1..]) by {
        assert s == [s[0]] + s[1..];
      }
    }
  }

  /** Filtering a list without repeats keeps it without repeats, and keeps exactly the elements that pass. */
  lemma {:induction false} FilterNoRepeats(s: seq<int>, p: int -> bool)
    requires NoRepeats(s)
    ensures NoRepeats(Filter(s, p))
    ensures forall x :: x in Filter(s, p) <==> x in s && p(x)
  {
    if |s| > 0 {
      HeadNotInTail(s);
      FilterNoRepeats(s[1..], p);
      var rest := Filter(s[1..], p);
      assert forall x :: x in s <==> x == s[0] || x in s[1..] by {
        assert s == [s[0]] + s[1..];
      }
      if p(s[0]) {
        var f := [s[0]] + rest;
        assert Filter(s, p) == f;
        assert forall i :: 1 <= i < |f| ==> f[i] == rest[i - 1];
      }
    }
  }

  /** When every selection is a correct index and neither list repeats, the correct indices chosen are exactly the selections. */
  lemma ChosenCount(correct: seq<int>, selected: seq<int>)
    requires NoRepeats(correct) && NoRepeats(selected)
    requires forall i :: 0 <= i < |selected| ==> selected[i] in correct
    ensures |Filter(correct, ChosenIn(selected))| == |selected|
  {
    var f := Filter(correct, ChosenIn(selected));
    FilterNoRepeats(correct, ChosenIn(selected));
    assert IndexSet(f) == IndexSet(selected);
    IndexSetSize(f);
    IndexSetSize(selected);
  }

  /**
    Repeats are the only difference: when neither the correct indices nor the
    selections repeat an index, the code as written and the intended validator agree.
   */
  lemma ValidateChoiceAgreesWithoutRepeats(v: MultipleChoiceValidator, selected: seq<int>)
    requires NoRepeats(v.correctIndices) && NoRepeats(selected)
    ensures ValidateChoice(v, selected) == ValidateChoiceIntended(v, selected)
  {
    if CountMatches(selected, v.correctIndices).Some? {
      ChosenCount(v.correctIndices, selected);
    }
  }

  /**
    `ValidateChoice` as its comment intends: in multiple mode the answer is correct
    exactly when every correct index was selected, and the partial score is the
    fraction of correct indices that were selected.
   */
  function ValidateChoiceIntended(v: MultipleChoiceValidator, selected: seq<int>): (r: ValidationResult)
    ensures r.correct <==>
      && (v.allowMultiple || |selected| <= 1)
      && (forall i :: 0 <= i < |selected| ==> selected[i] in v.correctIndices)
      && (v.allowMultiple ==> forall i :: 0 <= i < |v.correctIndices| ==> v.correctIndices[i] in selected)
    ensures 0.0 <= r.score <= 1.0
    ensures r.correct <==> r.score == 1.0
  {
    if !v.allowMultiple && |selected| > 1 then Rejected
    else match CountMatches(selected, v.correctIndices)
      case None => Rejected
      case Some(_) =>
        var hits := |Filter(v.correctIndices, ChosenIn(selected))|;
        FilterAll(v.correctIndices, ChosenIn(selected));
        if v.allowMultiple && hits != |v.correctIndices| then
          RatioBounds(hits, |v.correctIndices|);
          ValidationResult(false, [], [], hits as real / |v.correctIndices| as real, Some(""))
        else ValidationResult(true, [], [], 1.0, Some(""))
  }
}

=== FILE: wrappers.dfy ===
/** Absent-value and error-carrying wrappers shared by the rest of the model. */
module Wrappers {

  /** A value that may be missing: Go's nil pointer or a failed parse. */
  datatype Option<+T> = None | Some(value: T)

  /** A value or the error that prevented computing it: Go's `(T, error)` pair. */
  datatype Result<+T, +E> = Ok(value: T) | Err(error: E)
}
